=== FILE: README.md ===
# Scrapy's CrawlSpider rules, files pipeline and log helpers, in Dafny

This project models three parts of Scrapy:

- **The CrawlSpider rule engine** (`scrapy/spiders/crawl.py`):
  - rules and their defaults;
  - compiling method names against the spider;
  - following links, where each link goes to the first rule that keeps it;
  - routing responses and failures back to the rule that produced the request;
  - `parse_with_rules`, which first emits the callback's output and then the followed requests.
- **The deterministic parts of the files pipeline** (`scrapy/pipelines/files.py`):
  - mapping HTTP headers to botocore keyword arguments;
  - parsing `s3://` and `gs://` URIs;
  - the S3 upload call;
  - the filesystem store's paths and its directory cache;
  - classifying a download;
  - statistics;
  - building requests from an item;
  - writing the results into the item.
- **The helpers of `scrapy/utils/log.py`**:
  - `TopLevelFormatter`;
  - `StreamLogger.write`;
  - `logformatter_adapter`;
  - `SpiderLoggerAdapter.process`.

Layout:

- `wrappers.dfy`: `Option` and `Result`.
- `py.dfy`: the Python values and exceptions the code passes around, and truthiness.
- `text.dfy`: the `str` operations used. These are `in`, `startswith`, `split`, ASCII `lower`, `rstrip` and `splitlines`.
- `http.dfy`: links, requests, responses and failures, as values.
- `crawl.dfy`, `files.dfy`, `log.dfy`: one module per source file.

Source classes with state are Dafny classes. Some of them update their own fields:

- `Rule`, whose compilation rewrites its fields;
- `CrawlSpider`, which builds its compiled rule list;
- `FSFilesStore`, with its directory cache (the disk is modelled as fields too);
- the stats collector;
- an item;
- a log record;
- `StreamLogger`, whose record of log calls stands in for the logger.

Others only hold configuration and update objects passed to them:

- `FilesPipeline` updates the stats and the item;
- `TopLevelFormatter` updates the log record;
- `SpiderLoggerAdapter` updates the keyword arguments.

Their loops are methods proved against specification functions, and those functions carry the lemmas. Examples:

- `Crawl.Traverse` specifies `_requests_to_follow`.
- `Files.KwargsSpec` specifies `_headers_to_botocore_kwargs`.
- `Log.Logged` specifies `StreamLogger.write`.

User code is modelled as total Dafny functions. This covers link extractors, callbacks, errbacks, `process_links`, `process_request` and `process_results`.

A generator that raises part-way is modelled as a `Stream`: the items it yielded, followed by the exception it raised (if any).

A `process_links` or `process_request` name that the spider does not define compiles to `None` in `_compile`, and `_requests_to_follow` then calls that `None`. This raises `TypeError: 'NoneType' object is not callable`, and the model does the same (`Crawl.RunRule`, `Crawl.FirstBrokenRuleRaises`). A `None` returned by `process_request` is passed on, not dropped.

## Model

| member | source | states |
|---|---|---|
| Crawl.ParseStartUrl | scrapy/spiders/crawl.py:120-121 | The start page contributes no output of its own under the default `process_results`. |
| Crawl.ProcessResults | scrapy/spiders/crawl.py:123-126 | The results pass through: the same outputs, and the same truthiness. |
| Crawl.DefaultLinkExtractor | scrapy/spiders/crawl.py:57 | Every link the page holds, in page order. |
| Crawl.IdentityLinks | scrapy/spiders/crawl.py:41-42 | The default `process_links` keeps every link it is given, in order. |
| Crawl.IdentityRequest | scrapy/spiders/crawl.py:45-46 | The default `process_request` keeps the request it is given. |
| Crawl.GetMethod | scrapy/spiders/crawl.py:49-54 | A callable is returned as is. A name resolves to the spider attribute exactly when the spider has it. Anything else gives None. |
| Crawl.Rule.constructor | scrapy/spiders/crawl.py:71-79 | The defaults: the link extractor returns the page's links, `cb_kwargs` is `{}`, and a falsy `process_links`/`process_request` becomes the identity. `follow`, when not given, is the negation of the callback's truthiness. |
| Crawl.Rule.Copy | scrapy/spiders/crawl.py:212 | The shallow copy has the same field values as the original. |
| Crawl.Rule.Compile | scrapy/spiders/crawl.py:81-92 | The rule's new fields are its old fields compiled against the spider. |
| Crawl.CompileView | scrapy/spiders/crawl.py:81-92 | After compiling, no field holds a name. Only name fields change. For each of the four fields, a name the spider defines becomes that very attribute of the spider, and a name it does not define becomes `None`. Extractor, `cb_kwargs` and `follow` are kept. |
| Crawl.CompileIdempotent | scrapy/spiders/crawl.py:81-92 | Compiling an already compiled rule changes nothing. |
| Crawl.CrawlSpider.constructor | scrapy/spiders/crawl.py:100-102 | The compiled table holds one fresh, distinct copy per declared rule, each compiled against the spider. The declared rules are left unchanged. |
| Crawl.CrawlSpider.CompileRules | scrapy/spiders/crawl.py:209-213 | Same as the constructor: copies, compiled, in order, distinct. The declared rules are not touched. |
| Crawl.BuildRequest | scrapy/spiders/crawl.py:128-134 | The request carries the link's URL. Its meta holds exactly two keys: the rule's index under `rule` and the link text under `link_text`. It is routed to the spider's callback and errback. |
| Crawl.RuleIndexRoundTrip | scrapy/spiders/crawl.py:128-134 | Reading `meta["rule"]` back from a built request gives the rule index. `meta["link_text"]` is the link text. |
| Crawl.RuleIndex | scrapy/spiders/crawl.py:151-152 | `self._rules[meta["rule"]]`: a missing key raises `KeyError('rule')`, and a non-integer raises the list-index TypeError. An index in `0..n-1` picks that rule, and one in `-n..-1` counts from the end. Any other index raises `IndexError`. |
| Crawl.UnclaimedMembers | scrapy/spiders/crawl.py:141-145 | The extracted links kept for a rule are exactly those not yet seen. When none was seen, the list is unchanged. |
| Crawl.UnclaimedAppend | scrapy/spiders/crawl.py:141-145 | Filtering a concatenation is filtering each part: the candidates keep the extractor's order and its repeats. |
| Crawl.UnclaimedSingle | scrapy/spiders/crawl.py:141-145 | A single extracted link is kept exactly when it was not seen. |
| Crawl.Requests | scrapy/spiders/crawl.py:146-149 | One output per link kept by `process_links`. |
| Crawl.RunRule | scrapy/spiders/crawl.py:140-149 | A rule that runs yields one output per link it keeps. |
| Crawl.ClaimedMembers | scrapy/spiders/crawl.py:139-147 | The `seen` set is exactly the union of the links kept by the earlier rules. |
| Crawl.Follow | scrapy/spiders/crawl.py:136-149 | A non-HTML response yields nothing. An HTML response yields the traversal of all rules and stops with its exception, if any. When every rule's filters are callables, nothing is raised. |
| Crawl.Traverse | scrapy/spiders/crawl.py:139-149 | Without an error, every rule up to n took its turn. |
| Crawl.TraverseStops | scrapy/spiders/crawl.py:139-149 | Once a rule raises, later rules produce nothing. |
| Crawl.TraverseRuns | scrapy/spiders/crawl.py:139-149 | A rule that runs appends its links to `seen` and its requests to the output. |
| Crawl.TraverseRaises | scrapy/spiders/crawl.py:139-149 | A rule that raises ends the generator with its exception, after the earlier rules' output. |
| Crawl.TraversePrefix | scrapy/spiders/crawl.py:139-149 | The first k rules' result is a prefix of the whole traversal. |
| Crawl.RuleTurn | scrapy/spiders/crawl.py:139-149 | Rule k runs against the links claimed by rules 0..k-1 and contributes exactly its own requests. |
| Crawl.RunnableNeverFails | scrapy/spiders/crawl.py:146-149 | When every rule's `process_links` and `process_request` are callable, following raises nothing. |
| Crawl.FollowCount | scrapy/spiders/crawl.py:146-149 | One output is produced per followed link. |
| Crawl.TraverseLast | scrapy/spiders/crawl.py:139-149 | The result for n rules is the result for n-1 rules extended by rule n-1's run. |
| Crawl.FollowElement | scrapy/spiders/crawl.py:146-149 | The j-th link kept by rule k yields, at its position in the output, `process_request` applied to the request built for rule k. |
| Crawl.NoLinkFollowedTwice | scrapy/spiders/crawl.py:139-147 | A link followed by a rule that keeps only given links was not followed by any earlier rule. |
| Crawl.KeptWasExtracted | scrapy/spiders/crawl.py:141-146 | A followed link was extracted by its rule and was not claimed before. |
| Crawl.ExtractedIsKept | scrapy/spiders/crawl.py:141-147 | A link extracted by a rule whose filter keeps everything is followed by that rule or an earlier one. |
| Crawl.FirstExtractorClaims | scrapy/spiders/crawl.py:139-149 | With pass-through filters, a link is followed by rule k if and only if rule k extracts it and no earlier rule does. |
| Crawl.FirstBrokenRuleRaises | scrapy/spiders/crawl.py:146 | An uncallable `process_links` raises TypeError, after the output of the earlier rules. |
| Crawl.TraverseSamePrefix | scrapy/spiders/crawl.py:140-149 | Following depends only on the rules up to the current one. |
| Crawl.DefaultRuleFollowsEveryLink | scrapy/spiders/crawl.py:71-79 | A rule with all defaults follows every link on the page, in order. |
| Crawl.FilteredLinkReclaimedByLaterRule | scrapy/spiders/crawl.py:141-147 | A link extracted but dropped by `process_links` is not marked seen, so a later rule may follow it. |
| Crawl.FollowRule | scrapy/spiders/crawl.py:141-149 | The inner loop gives the rule's run. `seen` grows by exactly the links it kept. |
| Crawl.FollowRules | scrapy/spiders/crawl.py:139-149 | The outer loop yields exactly the traversal of all compiled rules, stopping at the first raise. |
| Crawl.CrawlSpider.RequestsToFollow | scrapy/spiders/crawl.py:136-149 | Gives the specified traversal. A non-HTML response yields nothing. |
| Crawl.CrawlSpider.ParseWithRules | scrapy/spiders/crawl.py:166-185 | The callback's normalised output comes first. Followed requests come only when both `follow` and the spider's setting are true. |
| Crawl.ElementOutputs | scrapy/spiders/crawl.py:180 | One output per element of a list or tuple, in order. A None element stays None. |
| Crawl.IterateOutput | scrapy/spiders/crawl.py:180 | None gives nothing. A list or tuple gives its elements. A generator gives what it yields. A request, a dict item, a string or a number gives itself. |
| Crawl.Normalize | scrapy/spiders/crawl.py:173-181 | A falsy returned value reaches `process_results` as `()`. An async generator reaches it as everything it yields. A coroutine's awaited value reaches it as is, not defaulted. The hook's result is then iterated as above. |
| Crawl.NormalizeWithoutHook | scrapy/spiders/crawl.py:173-180 | A falsy returned value yields nothing. An async generator yields its items. A coroutine yields its awaited value's items. |
| Crawl.CrawlSpider.Parse | scrapy/spiders/crawl.py:112-121 | `_parse` is `parse_with_rules` with `parse_start_url` and `follow=True`. With the default hooks it yields just the followed requests. |
| Crawl.CrawlSpider.OnResponse | scrapy/spiders/crawl.py:151-158 | A bad rule index raises. Otherwise the result is the rule's callback with `{**rule.cb_kwargs, **cb_kwargs}` and the rule's `follow`. |
| Crawl.CrawlSpider.HandleFailure | scrapy/spiders/crawl.py:202-207 | No errback gives no output, and neither does an errback whose result is falsy. Otherwise the output is the errback's result flattened one level. |
| Crawl.CrawlSpider.OnFailure | scrapy/spiders/crawl.py:160-164 | A bad rule index raises. Otherwise the failure is handed to the rule's errback. |
| Files.LookupInMeaning | scrapy/pipelines/files.py:238-270 | A header is found if and only if some table entry matches it ignoring case. The first match is returned. |
| Files.LookupIgnoresCase | scrapy/pipelines/files.py:238-266 | The lookup gives the same answer for a header and its lower-cased form. |
| Files.CacheControlSupported | scrapy/pipelines/files.py:241 | Any spelling of `Cache-Control` maps to `CacheControl`. |
| Files.HeadersToBotocoreKwargs | scrapy/pipelines/files.py:235-274 | The loop computes the specified mapping, or the first unsupported header's TypeError. |
| Files.KwargsFailure | scrapy/pipelines/files.py:268-272 | Fails if and only if some header is unsupported. The error names the first such header. |
| Files.KwargsSuccess | scrapy/pipelines/files.py:267-274 | On success, every header is supported. The keys are exactly the mapped names of the headers. |
| Files.KwargsLastWins | scrapy/pipelines/files.py:268-273 | When two headers map to one name, the later header's value is the one kept. |
| Files.DefaultHeadersSupported | scrapy/pipelines/files.py:165-167 | The store's default headers map to `CacheControl: max-age=172800`. |
| Files.SplitBucket | scrapy/pipelines/files.py:187 | Unpacking succeeds if and only if there is a `/`. The bucket holds no `/`, and bucket, `/` and prefix rebuild the text. Otherwise unpacking raises ValueError. |
| Files.ParseS3Uri | scrapy/pipelines/files.py:185-187 | A URI not starting with `s3://` raises the scheme ValueError. Otherwise the rest is split into bucket and prefix. |
| Files.ParseGcsUri | scrapy/pipelines/files.py:290 | Succeeds if and only if the text after the first five characters holds a `/`. Bucket, `/` and prefix rebuild that text, and the bucket holds no `/`. Otherwise unpacking raises ValueError. |
| Files.SplitBucketRoundTrip | scrapy/pipelines/files.py:187 | `bucket/prefix` splits back into the same bucket and prefix. |
| Files.S3UriRoundTrip | scrapy/pipelines/files.py:185-187 | `s3://bucket/prefix` parses back into the same bucket and prefix. |
| Files.GcsSchemeIgnored | scrapy/pipelines/files.py:290 | The GCS store skips the first five characters without checking them. |
| Files.KeyName | scrapy/pipelines/files.py:220 | The object key is the prefix followed by the path. |
| Files.S3PersistFile | scrapy/pipelines/files.py:211-233 | Succeeds exactly when the caller's headers are supported. The call gets the bucket, the key, the file's bytes as body, the ACL and the metadata. Its extra arguments are the defaults overridden by the caller's. |
| Files.CallerHeaderWins | scrapy/pipelines/files.py:222-224 | A caller's `Cache-Control` replaces the default one. |
| Files.ContentType | scrapy/pipelines/files.py:324-327 | The given `Content-Type`, or `application/octet-stream`. |
| Files.BlobPath | scrapy/pipelines/files.py:329-330 | The blob path is the same prefix-plus-path key as S3's. |
| Files.Components | scrapy/pipelines/files.py:143 | `Path` keeps only segments that are neither empty nor `.`. When every segment is kept, the list is unchanged. |
| Files.ComponentsAppend | scrapy/pipelines/files.py:143 | Dropping works segment by segment, so the kept segments stay in their order. |
| Files.ComponentsMembers | scrapy/pipelines/files.py:143 | A segment is kept if and only if it occurs and is neither empty nor `.`. |
| Files.JoinPath | scrapy/pipelines/files.py:143 | The joined path is the base's parts followed by the kept components of the names, with the base's absoluteness. |
| Files.Parent | scrapy/pipelines/files.py:124 | The parent path is the path without its last part. |
| Files.FilesystemPathIsJoin | scrapy/pipelines/files.py:141-143 | For a clean path under a clean relative or absolute base dir, the stored file's path is `basedir + "/" + path`. |
| Files.FSFilesStore.FilesystemPath | scrapy/pipelines/files.py:141-143 | The stored path is absolute exactly when the base dir is. Its parts are the base dir's parts followed by the path's kept segments. For a clean path under a clean base dir it renders as `basedir + "/" + path`. |
| Files.StripScheme | scrapy/pipelines/files.py:107-108 | The text after the first occurrence of `://`, or the whole base dir when there is none. |
| Files.StripSchemeRoundTrip | scrapy/pipelines/files.py:107-108 | `scheme://rest` strips to `rest`. |
| Files.RememberMeaning | scrapy/pipelines/files.py:148-152 | Only the given spider's cache gains the directory. Without a spider nothing is remembered, so the existence check repeats. |
| Files.FSFilesStore.constructor | scrapy/pipelines/files.py:105-113 | The base dir is stripped of its scheme and created, and the cache starts empty. |
| Files.FSFilesStore.Mkdir | scrapy/pipelines/files.py:145-152 | The directory exists afterwards. It is checked only when not cached, and then remembered for the spider. Files are untouched. |
| Files.FSFilesStore.PersistFile | scrapy/pipelines/files.py:115-125 | The bytes are written at the joined path, after its parent directory is made and cached for the spider. The parent directory is the only one added. Its existence is checked exactly when the spider had not remembered it. |
| Files.CountedBumpsTwo | scrapy/pipelines/files.py:697-700 | `file_count` and `file_status_count/<status>` each rise by one. No other counter changes. |
| Files.StatsCollector.IncValue | scrapy/pipelines/files.py:699 | The counter rises by one, starting from 0. |
| Files.FilesPipeline.IncStats | scrapy/pipelines/files.py:697-700 | The stats become the counted stats. |
| Files.DownloadOutcome | scrapy/pipelines/files.py:631-695 | A failed status or body check is returned as is. A failure while storing becomes a FileException with the same message. A success records the request URL and the stored path and checksum. |
| Files.DownloadOutcomeMeaning | scrapy/pipelines/files.py:631-695 | Every failure is a FileException. Success holds if and only if the status is 200, the body is non-empty and processing succeeded. The status is `cached` exactly for cached responses. |
| Files.FilesPipeline.MediaDownloaded | scrapy/pipelines/files.py:631-695 | Returns the outcome. Stats change only for a response that passed the status and body checks. |
| Files.MediaFailed | scrapy/pipelines/files.py:612-629 | Every download failure is re-raised as a bare FileException. |
| Files.RequestsFor | scrapy/pipelines/files.py:711 | One request per URL, in order, with no callback. A non-string URL raises TypeError. |
| Files.FilesPipeline.GetMediaRequests | scrapy/pipelines/files.py:703-711 | A missing field gives no requests. A non-list field raises the TypeError naming its type. A list gives exactly the requests for its URLs, so it succeeds exactly when every URL is a string. |
| Files.SucceededMeaning | scrapy/pipelines/files.py:732 | The result list holds exactly the successful downloads' records. |
| Files.SucceededAppend | scrapy/pipelines/files.py:732 | Filtering the results distributes over concatenation, so order is kept. |
| Files.FilesPipeline.ItemCompleted | scrapy/pipelines/files.py:728-733 | The result field is set to the successful records. An item that refuses the field is unchanged. The same item is returned. |
| Files.FilesPipeline.constructor | scrapy/pipelines/files.py:475-484 | The URL and result fields default to `file_urls` and `files`. |
| Log.AnyUnder | scrapy/utils/log.py:60 | True exactly when the name starts with some listed logger followed by a dot. |
| Log.Shortened | scrapy/utils/log.py:60-61 | A name under no listed logger is unchanged. A name under one becomes a dot-free prefix of itself. |
| Log.ShortenedToTopLevel | scrapy/utils/log.py:60-61 | A name under a listed top-level logger becomes that logger's name. |
| Log.ShortenedKeeps | scrapy/utils/log.py:60-61 | A name under no listed logger is kept. |
| Log.ShortenedIdempotent | scrapy/utils/log.py:60-61 | Filtering a record twice gives the same name as filtering once. |
| Log.TopLevelFormatter.constructor | scrapy/utils/log.py:55-57 | No logger list means no name is ever shortened. |
| Log.TopLevelFormatter.Filter | scrapy/utils/log.py:59-62 | Always keeps the record. The name becomes its shortened form. |
| Log.LogformatterAdapter | scrapy/utils/log.py:241-247 | Level defaults to INFO. The message is `msg` when that is present and truthy, else `""`. The args are `args` when that is present and truthy, else the whole dictionary. |
| Log.AdapterArgsTruthy | scrapy/utils/log.py:243-245 | The args passed on are falsy only when the whole dictionary is empty. |
| Log.MergedExtra | scrapy/utils/log.py:255-258 | The merged `extra` is a mapping that holds every key of the adapter's `extra`, with the adapter's value. |
| Log.MergedExtraMeaning | scrapy/utils/log.py:255-258 | The adapter's values always end up in `extra`. A caller's value survives only when given in a mapping and not overridden. |
| Log.SpiderLoggerAdapter.Process | scrapy/utils/log.py:251-260 | The message is unchanged. Only `kwargs["extra"]` changes, to the merged mapping. |
| Log.Logged | scrapy/utils/log.py:210-212 | One log call per line of the right-stripped buffer. |
| Log.LoggedNothingForBlank | scrapy/utils/log.py:210-212 | A buffer logs nothing if and only if it is all whitespace. |
| Log.LoggedLinesClean | scrapy/utils/log.py:210-212 | Every logged line is at the stream's level and has no trailing whitespace or line break. |
| Log.OneLineBuffer | scrapy/utils/log.py:210-212 | A single-line buffer is logged once, right-stripped. |
| Log.StreamLogger.constructor | scrapy/utils/log.py:205-208 | The level defaults to INFO, and nothing has been logged yet. |
| Log.StreamLogger.Write | scrapy/utils/log.py:210-212 | The log calls made are exactly one per line of the right-stripped buffer, in order. |
| Text.SplitLines | scrapy/utils/log.py:211 | No line holds a line break. There are no lines exactly when the text is empty. Text without a break is one line, and otherwise the first line is the text before the first break. |
| Text.SplitLinesKeepsText | scrapy/utils/log.py:211 | The lines put together are the text with only its line-break characters removed. |
| Text.RStrip | scrapy/utils/log.py:211-212 | The longest prefix not ending in whitespace. Only whitespace is removed. |

## Left out

- Networking, threads, Twisted Deferreds, and real files and clocks are not modelled. This covers the S3, GCS and FTP clients; the disk becomes the `directories` and `files` fields of `FSFilesStore`.
- Logging calls inside the pipeline are not modelled (their warnings and debug lines).
- `stat_file`, `media_to_download`, `file_path` (SHA-1 and MIME guessing), `file_downloaded` (MD5) and `_md5sum` are not modelled. Hashing is outside the model, so `media_downloaded` takes the path and checksum, or the error raised while computing them, as a parameter.
- Store selection (`_get_store`), settings handling (`from_settings`, `_update_stores`, `from_crawler`) and deprecation warnings are not modelled. `CRAWLSPIDER_FOLLOW_LINKS` becomes a constructor argument of `CrawlSpider`.
- The GCS and FTP `persist_file` are not modelled. Only the GCS content type and blob path are.
- `configure_logging`, the root handler functions, `log_scrapy_info`, `log_reactor_info`, `LogCounterHandler`, `failure_to_exc_info`, and `StreamLogger.flush` are not modelled.
- The link extractor's own behaviour is outside the model. A rule's extractor is a function of the response, and the default extractor returns the links the page holds.
- User code is modelled as total functions, so exceptions raised inside callbacks, errbacks, `process_links` or `process_request` are not modelled.
- The model assumes how `iterate_spider_output` and `arg_to_iter` behave, because their source is not part of this model. None gives nothing. A list or tuple gives its elements. A dict, string or any other value gives itself.
- Http.Link: only the URL and the text are modelled. Scrapy's `Link` also compares `fragment` and `nofollow`, so the model's `seen` set treats links that differ only there as one link.
- An attribute that exists but is not callable is not modelled: a name always resolves to a method or to nothing.
- Crawl.BuildRequest: the URL is passed on as the link holds it. `Request`'s escaping of the URL and its refusal of a URL without a scheme are not part of this model.
- Files.RequestsFor: `Request`'s own URL checks (scheme, escaping) are not part of this model. The TypeError message for a non-string URL is assumed.
- Files.FSFilesStore.Mkdir: `mkdir(parents=True)` creating missing ancestors is not modelled; only the directory itself is added.
- Files.Components: `pathlib` normalisation is modelled only for empty and `.` segments. A leading `//` and `..` are kept as written.
- Text.Lower: lower-cases ASCII letters only. `CaseInsensitiveDict` uses full Unicode lower-casing.
- Files.S3PersistFile: the metadata values are strings already; `str()` of other values is not modelled. The `extra` dictionary is returned by value, so aliasing is not captured.
- Log.SpiderLoggerAdapter.Process: the caller's `extra` mapping is updated in place in the source, but the model replaces the entry with the merged mapping. The aliasing of that mapping with other references is not captured.
- Crawl.CrawlSpider.OnResponse, Crawl.CrawlSpider.OnFailure: a `meta["rule"]` that is a bool or a negative int indexes as Python does. Other index types raise the list-index TypeError. Objects with `__index__` are not modelled.

=== FILE: crawl.dfy ===
/**
 * The rule-driven link-following spider (`scrapy/spiders/crawl.py`).
 *
 * A spider declares an ordered table of rules. Each instance compiles its own
 * copies of them. For every HTML response, each rule in turn extracts links,
 * drops the ones an earlier rule already claimed, filters the rest and turns
 * the survivors into requests tagged with the rule's index. When such a
 * request's response (or failure) comes back, the index recovers the rule
 * whose callback (or errback) and follow flag apply.
 *
 * User code (link extractors, callbacks, errbacks, filters) is modelled as
 * total Dafny functions.
 */
module Crawl {
  import opened Wrappers
  import opened Py
  import opened Http

  /** What the spider yields: an item, a request, or Python `None`. */
  datatype Output = Item(value: Value) | Req(request: Request) | Null

  /** A synchronous value a callback or errback hands back. */
  datatype Produced =
    | Nothing                     // None
    | Many(outputs: seq<Output>)  // a list, tuple or generator
    | Single(output: Output)      // one value: a request, an item, or a list or tuple of values

  /** The three shapes a callback's return value can take. */
  datatype CallbackResult =
    | Returned(produced: Produced)
    | AsyncGenerator(outputs: seq<Output>)
    | Coroutine(awaited: Produced)

  type Kwargs = map<string, Value>
  type Extractor = Response -> seq<Link>
  type Callback = (Response, Kwargs) -> CallbackResult
  type Errback = Failure -> Produced
  type LinkFilter = seq<Link> -> seq<Link>
  type RequestFilter = (Request, Response) -> Option<Request>
  type ResultsHook = (Response, Produced) -> Produced

  /** A rule field given as a callable, as the name of a spider attribute, or not at all. */
  datatype Ref<F> = Absent | Fn(f: F) | Name(name: string)

  /** Python truthiness of a rule field: a callable is true, a name is true unless empty. */
  predicate RefTruthy<F>(r: Ref<F>)
  {
    match r
    case Absent => false
    case Fn(_) => true
    case Name(n) => n != ""
  }

  /**
   * The attributes of one spider instance that rule field names resolve to,
   * one table per field kind, and the spider's two overridable hooks
   * `parse_start_url` and `process_results`.
   */
  datatype SpiderMethods = SpiderMethods(
    callbacks: map<string, Callback>,
    errbacks: map<string, Errback>,
    linkFilters: map<string, LinkFilter>,
    requestFilters: map<string, RequestFilter>,
    parseStartUrl: Callback,
    processResults: ResultsHook)

  /** `CrawlSpider.parse_start_url`: the start page yields nothing of its own. */
  function ParseStartUrl(response: Response, kwargs: Kwargs): (r: CallbackResult)
    ensures Normalize(r, response, ProcessResults) == []
  {
    Returned(Many([]))
  }

  /** `CrawlSpider.process_results`: the results pass through unchanged. */
  function ProcessResults(response: Response, results: Produced): (r: Produced)
    ensures IterateOutput(r) == IterateOutput(results) && (Falsy(r) <==> Falsy(results))
  {
    results
  }

  /** `_default_link_extractor`: every link the page holds. */
  function DefaultLinkExtractor(response: Response): (links: seq<Link>)
    ensures |links| == |response.links|
    ensures forall j :: 0 <= j < |links| ==> links[j] == response.links[j]
  {
    response.links
  }

  /** `_identity`, the default `process_links`. */
  function IdentityLinks(links: seq<Link>): (r: seq<Link>)
    ensures |r| == |links| && forall j :: 0 <= j < |r| ==> r[j] == links[j]
  {
    links
  }

  /** `_identity_process_request`, the default `process_request`. */
  function IdentityRequest(request: Request, response: Response): (r: Option<Request>)
    ensures r.Some? && r.value == request
  {
    Some(request)
  }

  /**
   * `_get_method`: a callable is returned unchanged, a name is looked up
   * among the spider's attributes (None when there is no such attribute),
   * and anything else gives None.
   */
  function GetMethod<F>(given: Ref<F>, attributes: map<string, F>): (r: Option<F>)
    ensures given.Fn? ==> r == Some(given.f)
    ensures given.Name? ==> (r.Some? <==> given.name in attributes)
    ensures given.Name? && r.Some? ==> r.value == attributes[given.name]
    ensures given.Absent? ==> r.None?
  {
    match given
    case Fn(f) => Some(f)
    case Name(n) => if n in attributes then Some(attributes[n]) else None
    case Absent => None
  }

  /** A resolved field stored back into the rule. */
  function Resolved<F>(o: Option<F>): Ref<F>
  {
    match o
    case Some(f) => Fn(f)
    case None => Absent
  }

  /** The abstract value of a `Rule` object: its seven fields. */
  datatype RuleView = RuleView(
    linkExtractor: Extractor,
    callback: Ref<Callback>,
    errback: Ref<Errback>,
    cbKwargs: Kwargs,
    processLinks: Ref<LinkFilter>,
    processRequest: Ref<RequestFilter>,
    follow: bool)

  /** A compiled rule holds no unresolved names. */
  predicate IsCompiled(v: RuleView)
  {
    !v.callback.Name? && !v.errback.Name? && !v.processLinks.Name? && !v.processRequest.Name?
  }

  /** `Rule._compile`, on values: every name-or-callable field goes through `_get_method`. */
  function CompileView(v: RuleView, spider: SpiderMethods): (c: RuleView)
    ensures IsCompiled(c)
    ensures c.linkExtractor == v.linkExtractor && c.cbKwargs == v.cbKwargs && c.follow == v.follow
    ensures !v.callback.Name? ==> c.callback == v.callback
    ensures !v.errback.Name? ==> c.errback == v.errback
    ensures !v.processLinks.Name? ==> c.processLinks == v.processLinks
    ensures !v.processRequest.Name? ==> c.processRequest == v.processRequest
    ensures v.callback.Name? && v.callback.name in spider.callbacks ==>
      c.callback == Fn(spider.callbacks[v.callback.name])
    ensures v.callback.Name? && v.callback.name !in spider.callbacks ==> c.callback == Absent
    ensures v.errback.Name? && v.errback.name in spider.errbacks ==>
      c.errback == Fn(spider.errbacks[v.errback.name])
    ensures v.errback.Name? && v.errback.name !in spider.errbacks ==> c.errback == Absent
    ensures v.processLinks.Name? && v.processLinks.name in spider.linkFilters ==>
      c.processLinks == Fn(spider.linkFilters[v.processLinks.name])
    ensures v.processLinks.Name? && v.processLinks.name !in spider.linkFilters ==> c.processLinks == Absent
    ensures v.processRequest.Name? && v.processRequest.name in spider.requestFilters ==>
      c.processRequest == Fn(spider.requestFilters[v.processRequest.name])
    ensures v.processRequest.Name? && v.processRequest.name !in spider.requestFilters ==> c.processRequest == Absent
  {
    v.(callback := Resolved(GetMethod(v.callback, spider.callbacks)),
       errback := Resolved(GetMethod(v.errback, spider.errbacks)),
       processLinks := Resolved(GetMethod(v.processLinks, spider.linkFilters)),
       processRequest := Resolved(GetMethod(v.processRequest, spider.requestFilters)))
  }

  /** A rule: a link extractor with its callback, errback, filters and follow flag. */
  class Rule {
    var linkExtractor: Extractor
    var callback: Ref<Callback>
    var errback: Ref<Errback>
    var cbKwargs: Kwargs
    var processLinks: Ref<LinkFilter>
    var processRequest: Ref<RequestFilter>
    var follow: bool

    function View(): RuleView
      reads this
    {
      RuleView(linkExtractor, callback, errback, cbKwargs, processLinks, processRequest, follow)
    }

    /**
     * `Rule.__init__`: a missing extractor is the default one, missing
     * keyword arguments are `{}`, a missing (or falsy) `process_links` is the
     * identity and a missing `process_request` passes the request through;
     * `follow` is kept when given and is otherwise true exactly when there
     * is no callback.
     */
    constructor (
      linkExtractor: Option<Extractor>, callback: Ref<Callback>, cbKwargs: Option<Kwargs>,
      follow: Option<bool>, processLinks: Ref<LinkFilter>, processRequest: Ref<RequestFilter>,
      errback: Ref<Errback>)
      ensures linkExtractor.Some? ==> this.linkExtractor == linkExtractor.value
      ensures linkExtractor.None? ==> forall r :: this.linkExtractor(r) == r.links
      ensures this.callback == callback && this.errback == errback
      ensures this.cbKwargs == if cbKwargs.Some? then cbKwargs.value else map[]
      ensures RefTruthy(processLinks) ==> this.processLinks == processLinks
      ensures !RefTruthy(processLinks) ==>
        this.processLinks.Fn? && forall ls :: this.processLinks.f(ls) == ls
      ensures RefTruthy(processRequest) ==> this.processRequest == processRequest
      ensures !RefTruthy(processRequest) ==>
        this.processRequest.Fn? && forall q, r :: this.processRequest.f(q, r) == Some(q)
      ensures follow.Some? ==> this.follow == follow.value
      ensures follow.None? ==> this.follow == !RefTruthy(callback)
    {
      var extractor: Extractor := if linkExtractor.Some? then linkExtractor.value else DefaultLinkExtractor;
      this.linkExtractor := extractor;
      this.callback := callback;
      this.errback := errback;
      this.cbKwargs := if cbKwargs.Some? then cbKwargs.value else map[];
      this.processLinks := if RefTruthy(processLinks) then processLinks else Fn(IdentityLinks);
      this.processRequest := if RefTruthy(processRequest) then processRequest else Fn(IdentityRequest);
      this.follow := if follow.Some? then follow.value else !RefTruthy(callback);
    }

    /** `copy.copy(rule)`: a new rule object with the same field values. */
    constructor Copy(other: Rule)
      ensures View() == other.View()
    {
      linkExtractor := other.linkExtractor;
      callback := other.callback;
      errback := other.errback;
      cbKwargs := other.cbKwargs;
      processLinks := other.processLinks;
      processRequest := other.processRequest;
      follow := other.follow;
    }

    /** `Rule._compile`: resolve the four name-or-callable fields against the spider, in place. */
    method Compile(spider: SpiderMethods)
      modifies this
      ensures View() == CompileView(old(View()), spider)
    {
      callback := Resolved(GetMethod(callback, spider.callbacks));
      errback := Resolved(GetMethod(errback, spider.errbacks));
      processLinks := Resolved(GetMethod(processLinks, spider.linkFilters));
      processRequest := Resolved(GetMethod(processRequest, spider.requestFilters));
    }
  }

  /** The views of a sequence of rule objects. */
  ghost function ViewsOf(rs: seq<Rule>): (vs: seq<RuleView>)
    reads rs
    ensures |vs| == |rs|
    ensures forall i :: 0 <= i < |rs| ==> vs[i] == rs[i].View()
  {
    if rs == [] then [] else ViewsOf(rs[..|rs| - 1]) + [rs[|rs| - 1].View()]
  }

  // ---------------------------------------------------------------------
  // Normalising callback results (`parse_with_rules`, `_handle_failure`)
  // ---------------------------------------------------------------------

  /** Python truthiness of a directly returned value. */
  predicate Falsy(p: Produced)
  {
    match p
    case Nothing => true
    case Many(outputs) => outputs == []
    case Single(Item(v)) => !Truthy(v)
    case Single(Req(_)) => false
    case Single(Null) => true
  }

  /** `value or ()` */
  function OrEmpty(p: Produced): Produced
  {
    if Falsy(p) then Many([]) else p
  }

  /** An element of an iterated Python value: `None` stays `None`, anything else is an item. */
  function ElementOutput(v: Value): (o: Output)
    ensures o.Null? <==> v.NoneValue?
    ensures !v.NoneValue? ==> o == Item(v)
  {
    if v.NoneValue? then Null else Item(v)
  }

  /** The elements of a Python list or tuple, in order, as outputs. */
  function ElementOutputs(values: seq<Value>): (outputs: seq<Output>)
    ensures |outputs| == |values|
    ensures forall i :: 0 <= i < |values| ==> outputs[i] == ElementOutput(values[i])
  {
    if values == [] then [] else [ElementOutput(values[0])] + ElementOutputs(values[1..])
  }

  /** A Python value `arg_to_iter` iterates over: a list or a tuple (not a dict or a string). */
  predicate IsIterable(v: Value)
  {
    v.ListValue? || v.TupleValue?
  }

  /**
   * `iterate_spider_output`: None is nothing, a list or tuple its elements,
   * anything else (a request, a dict item, a string, a number) itself.
   */
  function IterateOutput(p: Produced): (r: seq<Output>)
    ensures p.Nothing? || p == Single(Null) || p == Single(Item(NoneValue)) ==> r == []
    ensures p.Many? ==> r == p.outputs
    ensures p.Single? && p.output.Item? && IsIterable(p.output.value) ==>
      |r| == |p.output.value.items| &&
      forall i :: 0 <= i < |r| ==> r[i] == ElementOutput(p.output.value.items[i])
    ensures p.Single? && p.output.Item? && !p.output.value.NoneValue? && !IsIterable(p.output.value) ==> r == [p.output]
    ensures p.Single? && p.output.Req? ==> r == [p.output]
  {
    match p
    case Nothing => []
    case Many(outputs) => outputs
    case Single(Null) => []
    case Single(Req(_)) => [p.output]
    case Single(Item(v)) =>
      if v.NoneValue? then []
      else if IsIterable(v) then ElementOutputs(v.items)
      else [p.output]
  }

  /**
   * The outputs a callback result contributes: a directly returned falsy
   * value becomes `()`; an asynchronous generator is collected in full; a
   * coroutine is awaited (its value is not defaulted); then the spider's
   * `process_results` hook runs and the value is flattened one level.
   */
  function Normalize(result: CallbackResult, response: Response, hook: ResultsHook): (r: seq<Output>)
    ensures result.Returned? && Falsy(result.produced) ==> r == IterateOutput(hook(response, Many([])))
    ensures result.Returned? && !Falsy(result.produced) ==> r == IterateOutput(hook(response, result.produced))
    ensures result.AsyncGenerator? ==> r == IterateOutput(hook(response, Many(result.outputs)))
    ensures result.Coroutine? ==> r == IterateOutput(hook(response, result.awaited))
  {
    match result
    case Returned(p) => IterateOutput(hook(response, OrEmpty(p)))
    case AsyncGenerator(outputs) => IterateOutput(hook(response, Many(outputs)))
    case Coroutine(p) => IterateOutput(hook(response, p))
  }

  /** The outputs of the callback step of `parse_with_rules` (none without a callback). */
  function CallbackOutput(callback: Option<Callback>, response: Response, cbKwargs: Kwargs, hook: ResultsHook): seq<Output>
  {
    match callback
    case None => []
    case Some(f) => Normalize(f(response, cbKwargs), response, hook)
  }

  /** The outputs of `_handle_failure` (none without an errback). */
  function FailureOutput(failure: Failure, errback: Option<Errback>): seq<Output>
  {
    match errback
    case None => []
    case Some(f) => IterateOutput(OrEmpty(f(failure)))
  }

  // ---------------------------------------------------------------------
  // Following links (`_build_request`, `_requests_to_follow`)
  // ---------------------------------------------------------------------

  /** What a generator yields before it stops, and the exception it stops with, if any. */
  datatype Stream = Stream(items: seq<Output>, failure: Option<Exception>)

  /** The stream `prefix` then `s`. */
  function Prepend(prefix: seq<Output>, s: Stream): Stream
  {
    Stream(prefix + s.items, s.failure)
  }

  /** The meta a follow request carries: the index of its rule and the link's text. */
  function RuleMeta(ruleIndex: nat, link: Link): map<string, Value>
  {
    map["rule" := IntValue(ruleIndex), "link_text" := StrValue(link.text)]
  }

  /** `_build_request` */
  function BuildRequest(ruleIndex: nat, link: Link): (r: Request)
    ensures r.url == link.url && "rule" in r.meta && r.meta["rule"] == IntValue(ruleIndex)
    ensures r.meta.Keys == {"rule", "link_text"} && r.meta["link_text"] == StrValue(link.text)
    ensures r.callback == CrawlCallback && r.errback == CrawlErrback
  {
    Request(link.url, RuleMeta(ruleIndex, link), CrawlCallback, CrawlErrback)
  }

  /** The set of links in a list. */
  function Elems(links: seq<Link>): set<Link>
  {
    set l | l in links
  }

  /** `[lnk for lnk in links if lnk not in seen]` */
  function Unclaimed(links: seq<Link>, seen: set<Link>): (r: seq<Link>)
    ensures |r| <= |links|
  {
    if links == [] then []
    else if links[0] in seen then Unclaimed(links[1..], seen)
    else [links[0]] + Unclaimed(links[1..], seen)
  }

  /**
   * The candidates are the extracted links not yet seen; when none was seen
   * the list is unchanged, in order and with its repeats.
   */
  lemma {:induction false} UnclaimedMembers(links: seq<Link>, seen: set<Link>)
    ensures forall l :: l in Unclaimed(links, seen) <==> l in links && l !in seen
    ensures (forall l :: l in links ==> l !in seen) ==> Unclaimed(links, seen) == links
  {
    if links != [] {
      UnclaimedMembers(links[1..], seen);
      assert links == [links[0]] + links[1..];
    }
  }

  /**
   * The candidates keep the extractor's order and its repeats: filtering a
   * list is filtering its pieces, one link at a time.
   */
  lemma {:induction false} UnclaimedAppend(a: seq<Link>, b: seq<Link>, seen: set<Link>)
    ensures Unclaimed(a + b, seen) == Unclaimed(a, seen) + Unclaimed(b, seen)
  {
    if a != [] {
      assert (a + b)[1..] == a[1..] + b;
      UnclaimedAppend(a[1..], b, seen);
    } else {
      assert a + b == b;
    }
  }

  /** A single link is kept exactly when it was not seen. */
  lemma UnclaimedSingle(l: Link, seen: set<Link>)
    ensures Unclaimed([l], seen) == if l in seen then [] else [l]
  {
    assert [l][1..] == [];
  }

  /** A request filter's answer as a yielded value: the request, or `None`. */
  function AsOutput(r: Option<Request>): Output
  {
    match r
    case Some(q) => Req(q)
    case None => Null
  }

  /** What rule `ruleIndex` yields for the links its `process_links` kept. */
  function Requests(processRequest: RequestFilter, ruleIndex: nat, links: seq<Link>, response: Response): (r: seq<Output>)
    ensures |r| == |links|
  {
    seq(|links|, j requires 0 <= j < |links| => AsOutput(processRequest(BuildRequest(ruleIndex, links[j]), response)))
  }

  /** The TypeError of calling a field that did not resolve to a callable. */
  function CallError<F>(r: Ref<F>): Exception
  {
    NotCallable(if r.Name? then "str" else "NoneType")
  }

  /** One rule's turn: the links it keeps and what it yields, or the exception it raises. */
  datatype RuleRun = Ran(links: seq<Link>, outputs: seq<Output>) | Raised(error: Exception)

  /** What a rule yields for the links its `process_links` kept (nothing when it kept none). */
  function RuleOutputs(v: RuleView, ruleIndex: nat, links: seq<Link>, response: Response): seq<Output>
  {
    match v.processRequest
    case Fn(pr) => Requests(pr, ruleIndex, links, response)
    case _ => []
  }

  function RunRule(v: RuleView, ruleIndex: nat, response: Response, seen: set<Link>): (r: RuleRun)
    ensures r.Ran? ==> |r.outputs| == |r.links|
  {
    var candidates := Unclaimed(v.linkExtractor(response), seen);
    match v.processLinks
    case Fn(pl) =>
      var links := pl(candidates);
      if v.processRequest.Fn? || links == [] then Ran(links, RuleOutputs(v, ruleIndex, links, response))
      else Raised(CallError(v.processRequest))
    case _ => Raised(CallError(v.processLinks))
  }

  /** Every link some rule of `perRule` kept. */
  function Claimed(perRule: seq<seq<Link>>): set<Link>
  {
    if perRule == [] then {}
    else Claimed(perRule[..|perRule| - 1]) + Elems(perRule[|perRule| - 1])
  }

  /** A link is claimed exactly when some rule kept it. */
  lemma {:induction false} ClaimedMembers(perRule: seq<seq<Link>>, l: Link)
    ensures l in Claimed(perRule) <==> exists i :: 0 <= i < |perRule| && l in perRule[i]
  {
    if perRule != [] {
      var front := perRule[..|perRule| - 1];
      ClaimedMembers(front, l);
      if l in Claimed(front) {
        var i :| 0 <= i < |front| && l in front[i];
        assert l in perRule[i];
      }
      if exists i :: 0 <= i < |perRule| && l in perRule[i] {
        var i :| 0 <= i < |perRule| && l in perRule[i];
        if i < |front| {
          assert l in front[i];
        }
      }
    }
  }

  /**
   * The state after the first `n` rules have taken their turn: the links
   * each kept, everything yielded so far, and the exception that stopped
   * the traversal, if one did.
   */
  datatype Traversal = Traversal(perRule: seq<seq<Link>>, items: seq<Output>, failure: Option<Exception>)

  function Traverse(views: seq<RuleView>, response: Response, n: nat): (t: Traversal)
    requires n <= |views|
    ensures |t.perRule| <= n
    ensures t.failure.None? ==> |t.perRule| == n
  {
    if n == 0 then Traversal([], [], None)
    else
      var t := Traverse(views, response, n - 1);
      if t.failure.Some? then t
      else match RunRule(views[n - 1], n - 1, response, Claimed(t.perRule))
        case Ran(links, outputs) => Traversal(t.perRule + [links], t.items + outputs, None)
        case Raised(e) => Traversal(t.perRule, t.items, Some(e))
  }

  /** Once a rule has raised, the later rules never run. */
  lemma {:induction false} TraverseStops(views: seq<RuleView>, response: Response, k: nat, n: nat)
    requires k <= n <= |views|
    requires Traverse(views, response, k).failure.Some?
    ensures Traverse(views, response, n) == Traverse(views, response, k)
    decreases n
  {
    if n > k {
      TraverseStops(views, response, k, n - 1);
      var t := Traverse(views, response, n - 1);
      assert t.failure.Some?;
      assert Traverse(views, response, n) == t;
    }
  }

  /** A rule's turn that runs extends the traversal by its links and outputs. */
  lemma TraverseRuns(views: seq<RuleView>, response: Response, k: nat,
                     perRule: seq<seq<Link>>, items: seq<Output>, links: seq<Link>, outputs: seq<Output>)
    requires k < |views|
    requires Traverse(views, response, k) == Traversal(perRule, items, None)
    requires RunRule(views[k], k, response, Claimed(perRule)) == Ran(links, outputs)
    ensures Traverse(views, response, k + 1) == Traversal(perRule + [links], items + outputs, None)
    ensures Claimed(perRule + [links]) == Claimed(perRule) + Elems(links)
  {
    assert (perRule + [links])[..|perRule|] == perRule;
  }

  /** A rule's turn that raises ends the whole traversal with that exception. */
  lemma TraverseRaises(views: seq<RuleView>, response: Response, k: nat,
                       perRule: seq<seq<Link>>, items: seq<Output>, e: Exception)
    requires k < |views|
    requires Traverse(views, response, k) == Traversal(perRule, items, None)
    requires RunRule(views[k], k, response, Claimed(perRule)) == Raised(e)
    ensures Traverse(views, response, |views|) == Traversal(perRule, items, Some(e))
  {
    TraverseStops(views, response, k + 1, |views|);
  }

  /** What `_requests_to_follow` yields for a rule table: nothing at all for a non-HTML response. */
  function Follow(views: seq<RuleView>, response: Response): (r: Stream)
    ensures !response.isHtml ==> r == Stream([], None)
    ensures response.isHtml ==> r.items == Traverse(views, response, |views|).items
    ensures response.isHtml ==> r.failure == Traverse(views, response, |views|).failure
    ensures (forall i :: 0 <= i < |views| ==> Runnable(views[i])) ==> r.failure.None?
  {
    if !response.isHtml then Stream([], None)
    else
      var t := Traverse(views, response, |views|);
      RunnableNeverFails(views, response, |views|);
      Stream(t.items, t.failure)
  }

  // ---------------------------------------------------------------------
  // Routing a response or failure back to its rule
  // ---------------------------------------------------------------------

  /** A Python value used as a list index: an int, or a bool (False is 0, True is 1). */
  function IndexValue(v: Value): Option<int>
  {
    match v
    case IntValue(i) => Some(i)
    case BoolValue(b) => Some(if b then 1 else 0)
    case _ => None
  }

  /**
   * `self._rules[meta["rule"]]`, as the position it reaches in a table of
   * `n` rules: a missing key raises KeyError, a non-integer TypeError, an
   * index outside `-n .. n-1` IndexError, and a negative index counts from
   * the end.
   */
  function RuleIndex(meta: map<string, Value>, n: nat): (r: Result<nat, Exception>)
    ensures r.Success? ==> r.value < n
    ensures "rule" !in meta ==> r == Result.Failure(KeyError("rule"))
    ensures "rule" in meta && IndexValue(meta["rule"]).None? ==>
      r == Result.Failure(TypeError("list indices must be integers or slices, not " + TypeName(meta["rule"])))
    ensures "rule" in meta && IndexValue(meta["rule"]).Some? ==>
      var i := IndexValue(meta["rule"]).value;
      (0 <= i < n ==> r == Success(i as nat))
      && (-(n as int) <= i < 0 ==> r == Success((n + i) as nat))
      && (i < -(n as int) || n <= i ==> r == Result.Failure(IndexError("list index out of range")))
  {
    if "rule" !in meta then Result.Failure(KeyError("rule"))
    else match IndexValue(meta["rule"])
      case None => Result.Failure(TypeError("list indices must be integers or slices, not " + TypeName(meta["rule"])))
      case Some(i) =>
        if 0 <= i < n then Success(i as nat)
        else if -(n as int) <= i < 0 then Success((n + i) as nat)
        else Result.Failure(IndexError("list index out of range"))
  }

  /** A compiled field as the callable it holds, or None. */
  function AsCallable<F>(r: Ref<F>): Option<F>
  {
    match r
    case Fn(f) => Some(f)
    case _ => None
  }

  /**
   * One rule's turn in `_requests_to_follow`: filter out the links already
   * seen, pass the rest through `process_links`, and for each link it keeps
   * mark the link seen and yield what `process_request` makes of its request.
   */
  method FollowRule(rule: Rule, ruleIndex: nat, response: Response, seen: set<Link>)
    returns (run: RuleRun, seenAfter: set<Link>)
    ensures run == RunRule(rule.View(), ruleIndex, response, seen)
    ensures run.Ran? ==> seenAfter == seen + Elems(run.links)
  {
    var candidates := Unclaimed(rule.linkExtractor(response), seen);
    if !rule.processLinks.Fn? {
      return Raised(CallError(rule.processLinks)), seen;
    }
    var links := rule.processLinks.f(candidates);
    var out: seq<Output> := [];
    seenAfter := seen;
    var j := 0;
    while j < |links|
      invariant 0 <= j <= |links|
      invariant seenAfter == seen + Elems(links[..j])
      invariant rule.processRequest.Fn? ==> out == Requests(rule.processRequest.f, ruleIndex, links[..j], response)
      invariant !rule.processRequest.Fn? ==> j == 0 && out == []
    {
      seenAfter := seenAfter + {links[j]};
      var request := BuildRequest(ruleIndex, links[j]);
      if !rule.processRequest.Fn? {
        return Raised(CallError(rule.processRequest)), seenAfter;
      }
      out := out + [AsOutput(rule.processRequest.f(request, response))];
      assert links[..j + 1] == links[..j] + [links[j]];
      j := j + 1;
    }
    assert links[..j] == links;
    return Ran(links, out), seenAfter;
  }

  /** A rule's turn in the loop of `FollowRules` keeps the loop's picture of the traversal. */
  lemma FollowStep(table: seq<RuleView>, response: Response, k: nat, perRule: seq<seq<Link>>,
                   out: seq<Output>, run: RuleRun, seen: set<Link>, seenAfter: set<Link>)
    requires k < |table|
    requires Traverse(table, response, k) == Traversal(perRule, out, None) && seen == Claimed(perRule)
    requires run == RunRule(table[k], k, response, seen) && run.Ran?
    requires seenAfter == seen + Elems(run.links)
    ensures Traverse(table, response, k + 1) == Traversal(perRule + [run.links], out + run.outputs, None)
    ensures seenAfter == Claimed(perRule + [run.links])
  {
    TraverseRuns(table, response, k, perRule, out, run.links, run.outputs);
  }

  /** The loop of `_requests_to_follow` over a rule table, for an HTML response. */
  method FollowRules(rules: seq<Rule>, response: Response) returns (s: Stream)
    ensures var t := Traverse(ViewsOf(rules), response, |rules|); s == Stream(t.items, t.failure)
  {
    ghost var table := ViewsOf(rules);
    var seen: set<Link> := {};
    var out: seq<Output> := [];
    ghost var perRule: seq<seq<Link>> := [];
    var k := 0;
    while k < |rules|
      invariant 0 <= k <= |rules| == |table|
      invariant Traverse(table, response, k) == Traversal(perRule, out, None)
      invariant seen == Claimed(perRule)
    {
      assert rules[k].View() == table[k];
      var run, seenAfter := FollowRule(rules[k], k, response, seen);
      if run.Raised? {
        TraverseRaises(table, response, k, perRule, out, run.error);
        return Stream(out, Some(run.error));
      }
      FollowStep(table, response, k, perRule, out, run, seen, seenAfter);
      out := out + run.outputs;
      perRule := perRule + [run.links];
      seen := seenAfter;
      k := k + 1;
    }
    return Stream(out, None);
  }

  /** A crawl spider instance: its declared rules, its compiled copies and its follow-links switch. */
  class CrawlSpider {
    /** `rules`, the declared rule table. */
    const rules: seq<Rule>
    /** The attributes names resolve against, and the two overridable hooks. */
    const methods: SpiderMethods
    /** `_rules`, this instance's compiled copies. */
    var compiled: seq<Rule>
    /** `_follow_links`, from the `CRAWLSPIDER_FOLLOW_LINKS` setting. */
    var followLinks: bool

    /** The compiled rule table, as values. */
    ghost function Table(): seq<RuleView>
      reads this, compiled
    {
      ViewsOf(compiled)
    }

    /** Every compiled rule holds callables or nothing, never a name. */
    ghost predicate Valid()
      reads this, compiled
    {
      forall i :: 0 <= i < |compiled| ==> IsCompiled(compiled[i].View())
    }

    /**
     * `CrawlSpider.__init__` followed by `from_crawler`: compile the rules,
     * then take the follow-links setting.
     */
    constructor (rules: seq<Rule>, methods: SpiderMethods, followLinksSetting: bool)
      ensures this.rules == rules && this.methods == methods && followLinks == followLinksSetting
      ensures |compiled| == |rules|
      ensures forall i :: 0 <= i < |rules| ==>
        fresh(compiled[i]) && compiled[i].View() == CompileView(rules[i].View(), methods)
      ensures forall i, j :: 0 <= i < j < |compiled| ==> compiled[i] != compiled[j]
      ensures forall i :: 0 <= i < |rules| ==> rules[i].View() == old(rules[i].View())
      ensures Valid()
    {
      this.rules := rules;
      this.methods := methods;
      compiled := [];
      followLinks := followLinksSetting;
      new;
      CompileRules();
    }

    /**
     * `_compile_rules`: a fresh table holding, in order, a compiled copy of
     * each declared rule; the declared rules are left as they were.
     */
    method CompileRules()
      modifies this
      ensures followLinks == old(followLinks)
      ensures |compiled| == |rules|
      ensures forall i :: 0 <= i < |rules| ==>
        fresh(compiled[i]) && compiled[i].View() == CompileView(rules[i].View(), methods)
      ensures forall i, j :: 0 <= i < j < |compiled| ==> compiled[i] != compiled[j]
      ensures Valid()
    {
      compiled := [];
      var i := 0;
      while i < |rules|
        invariant 0 <= i <= |rules| && |compiled| == i
        invariant followLinks == old(followLinks)
        invariant forall j :: 0 <= j < i ==>
          fresh(compiled[j]) && compiled[j].View() == CompileView(rules[j].View(), methods)
        invariant forall j, k :: 0 <= j < k < i ==> compiled[j] != compiled[k]
      {
        var copy := new Rule.Copy(rules[i]);
        copy.Compile(methods);
        compiled := compiled + [copy];
        i := i + 1;
      }
    }

    /** `parse_with_rules`, as a value: the callback's outputs, then (when following) the follow requests. */
    ghost function ParseSpec(response: Response, callback: Option<Callback>, cbKwargs: Kwargs, follow: bool): Stream
      reads this, compiled
    {
      Prepend(CallbackOutput(callback, response, cbKwargs, methods.processResults),
              if follow && followLinks then Follow(Table(), response) else Stream([], None))
    }

    /** `_requests_to_follow` */
    method RequestsToFollow(response: Response) returns (s: Stream)
      ensures s == Follow(Table(), response)
      ensures !response.isHtml ==> s == Stream([], None)
    {
      if !response.isHtml {
        return Stream([], None);
      }
      s := FollowRules(compiled, response);
    }

    /** `parse_with_rules`: the callback's outputs first, then the follow requests when following. */
    method ParseWithRules(response: Response, callback: Option<Callback>, cbKwargs: Kwargs, follow: bool)
      returns (s: Stream)
      ensures s == ParseSpec(response, callback, cbKwargs, follow)
      ensures s.items[..|CallbackOutput(callback, response, cbKwargs, methods.processResults)|]
           == CallbackOutput(callback, response, cbKwargs, methods.processResults)
      ensures !(follow && followLinks) ==>
        s == Stream(CallbackOutput(callback, response, cbKwargs, methods.processResults), None)
      ensures callback.None? && follow && followLinks ==> s == Follow(Table(), response)
    {
      var out: seq<Output> := [];
      if callback.Some? {
        var results := Normalize(callback.value(response, cbKwargs), response, methods.processResults);
        for i := 0 to |results|
          invariant out == results[..i]
        {
          out := out + [results[i]];
        }
        assert out == results[..|results|] == results;
      }
      if follow && followLinks {
        var requests := RequestsToFollow(response);
        return Prepend(out, requests);
      }
      return Stream(out, None);
    }

    /** `_parse`: a start response goes to `parse_start_url`, and its links are always followed. */
    method Parse(response: Response, kwargs: Kwargs) returns (s: Stream)
      ensures s == ParseSpec(response, Some(methods.parseStartUrl), kwargs, true)
      ensures methods.parseStartUrl(response, kwargs) == Returned(Many([])) &&
              (forall p :: methods.processResults(response, p) == p) ==>
                s == if followLinks then Follow(Table(), response) else Stream([], None)
    {
      s := ParseWithRules(response, Some(methods.parseStartUrl), kwargs, true);
    }

    /**
     * `_callback`: the response's `meta["rule"]` picks the rule whose
     * callback, keyword arguments (the request's own winning) and follow
     * flag apply.
     */
    method OnResponse(response: Response, cbKwargs: Kwargs) returns (s: Stream)
      requires Valid()
      ensures RuleIndex(response.meta, |compiled|).Failure? ==>
        s == Stream([], Some(RuleIndex(response.meta, |compiled|).error))
      ensures RuleIndex(response.meta, |compiled|).Success? ==>
        var rule := Table()[RuleIndex(response.meta, |compiled|).value];
        s == ParseSpec(response, AsCallable(rule.callback), rule.cbKwargs + cbKwargs, rule.follow)
    {
      var index := RuleIndex(response.meta, |compiled|);
      if index.Failure? {
        return Stream([], Some(index.error));
      }
      var rule := compiled[index.value];
      assert rule.View() == Table()[index.value];
      s := ParseWithRules(response, AsCallable(rule.callback), rule.cbKwargs + cbKwargs, rule.follow);
    }

    /** `_handle_failure`: the errback's flattened output, or nothing without an errback. */
    method HandleFailure(failure: Failure, errback: Option<Errback>) returns (out: seq<Output>)
      ensures out == FailureOutput(failure, errback)
      ensures errback.None? ==> out == []
      ensures errback.Some? && Falsy(errback.value(failure)) ==> out == []
      ensures errback.Some? && !Falsy(errback.value(failure)) ==> out == IterateOutput(errback.value(failure))
    {
      out := [];
      if errback.Some? {
        var results := IterateOutput(OrEmpty(errback.value(failure)));
        for i := 0 to |results|
          invariant out == results[..i]
        {
          out := out + [results[i]];
        }
        assert out == results[..|results|] == results;
      }
    }

    /**
     * `_errback`: the failed request's `meta["rule"]` picks the rule whose
     * errback handles the failure; no links are followed.
     */
    method OnFailure(failure: Failure) returns (s: Stream)
      requires Valid()
      ensures RuleIndex(failure.request.meta, |compiled|).Failure? ==>
        s == Stream([], Some(RuleIndex(failure.request.meta, |compiled|).error))
      ensures RuleIndex(failure.request.meta, |compiled|).Success? ==>
        var rule := Table()[RuleIndex(failure.request.meta, |compiled|).value];
        s == Stream(FailureOutput(failure, AsCallable(rule.errback)), None)
    {
      var index := RuleIndex(failure.request.meta, |compiled|);
      if index.Failure? {
        return Stream([], Some(index.error));
      }
      var rule := compiled[index.value];
      assert rule.View() == Table()[index.value];
      var out := HandleFailure(failure, AsCallable(rule.errback));
      return Stream(out, None);
    }
  }

  // ---------------------------------------------------------------------
  // Properties
  // ---------------------------------------------------------------------

  /** Compiling a compiled rule again changes nothing. */
  lemma CompileIdempotent(v: RuleView, spider: SpiderMethods)
    ensures CompileView(CompileView(v, spider), spider) == CompileView(v, spider)
  {
  }

  /** A follow request for rule `k` of a table of `n` rules is routed back to rule `k`. */
  lemma RuleIndexRoundTrip(k: nat, link: Link, n: nat)
    requires k < n
    ensures RuleIndex(BuildRequest(k, link).meta, n) == Success(k)
    ensures BuildRequest(k, link).meta["link_text"] == StrValue(link.text)
  {
  }

  /** A rule that can never raise: both filters are callables. */
  predicate Runnable(v: RuleView)
  {
    v.processLinks.Fn? && v.processRequest.Fn?
  }

  /** A `process_links` that only drops links (keeps a sub-list, in any order, with repeats). */
  ghost predicate KeepsOnlyGiven(v: RuleView)
  {
    v.processLinks.Fn? && forall ls, l :: l in v.processLinks.f(ls) ==> l in ls
  }

  /** A `process_links` that passes its input through unchanged. */
  ghost predicate PassesAll(v: RuleView)
  {
    v.processLinks.Fn? && forall ls :: v.processLinks.f(ls) == ls
  }

  /** The total number of links in a list of link lists. */
  function TotalLength(perRule: seq<seq<Link>>): nat
  {
    if perRule == [] then 0 else TotalLength(perRule[..|perRule| - 1]) + |perRule[|perRule| - 1]|
  }

  /** The traversal of the first `k` rules is a prefix of the traversal of the first `n`. */
  lemma {:induction false} TraversePrefix(views: seq<RuleView>, response: Response, k: nat, n: nat)
    requires k <= n <= |views|
    requires Traverse(views, response, n).failure.None?
    ensures Traverse(views, response, k).failure.None?
    ensures Traverse(views, response, k).perRule == Traverse(views, response, n).perRule[..k]
    ensures Traverse(views, response, k).items <= Traverse(views, response, n).items
    decreases n
  {
    var t := Traverse(views, response, n);
    if n > k {
      var u := Traverse(views, response, n - 1);
      assert u.failure.None?;
      TraversePrefix(views, response, k, n - 1);
      var run := RunRule(views[n - 1], n - 1, response, Claimed(u.perRule));
      assert t == Traversal(u.perRule + [run.links], u.items + run.outputs, None);
      assert (u.perRule + [run.links])[..k] == u.perRule[..k];
    } else {
      assert t.perRule[..k] == t.perRule;
    }
  }

  /**
   * In a traversal that raised nothing, rule `k` ran on the links its
   * extractor found minus those the earlier rules kept, and yielded what
   * `process_request` made of each link its `process_links` kept, in order.
   */
  lemma RuleTurn(views: seq<RuleView>, response: Response, n: nat, k: nat)
    requires k < n <= |views|
    requires Traverse(views, response, n).failure.None?
    ensures var t := Traverse(views, response, n);
      RunRule(views[k], k, response, Claimed(t.perRule[..k]))
        == Ran(t.perRule[k], RuleOutputs(views[k], k, t.perRule[k], response))
    ensures var t := Traverse(views, response, n);
      Traverse(views, response, k + 1).items
        == Traverse(views, response, k).items + RuleOutputs(views[k], k, t.perRule[k], response)
  {
    var t := Traverse(views, response, n);
    TraversePrefix(views, response, k + 1, n);
    TraversePrefix(views, response, k, n);
    var u := Traverse(views, response, k);
    var run := RunRule(views[k], k, response, Claimed(u.perRule));
    assert Traverse(views, response, k + 1).perRule == u.perRule + [run.links];
    assert t.perRule[..k + 1][k] == t.perRule[k];
  }

  /** Rules whose filters are callables never raise, so every rule takes its turn. */
  lemma {:induction false} RunnableNeverFails(views: seq<RuleView>, response: Response, n: nat)
    requires n <= |views|
    ensures (forall i :: 0 <= i < |views| ==> Runnable(views[i])) ==> Traverse(views, response, n).failure.None?
  {
    if n > 0 {
      RunnableNeverFails(views, response, n - 1);
    }
  }

  /** The number of follow outputs is the total number of links the rules' `process_links` kept. */
  lemma {:induction false} FollowCount(views: seq<RuleView>, response: Response, n: nat)
    requires n <= |views|
    requires Traverse(views, response, n).failure.None?
    ensures |Traverse(views, response, n).items| == TotalLength(Traverse(views, response, n).perRule)
  {
    if n > 0 {
      var t := Traverse(views, response, n);
      var u := Traverse(views, response, n - 1);
      TraverseLast(views, response, n);
      var run := RunRule(views[n - 1], n - 1, response, Claimed(u.perRule));
      FollowCount(views, response, n - 1);
      assert |run.outputs| == |run.links|;
      assert t.perRule == u.perRule + [run.links];
      assert t.perRule[..|t.perRule| - 1] == u.perRule;
      assert TotalLength(t.perRule) == TotalLength(u.perRule) + |run.links|;
      assert t.items == u.items + run.outputs;
      assert |t.items| == |u.items| + |run.outputs|;
    }
  }

  /** The last step of a traversal that raised nothing. */
  lemma TraverseLast(views: seq<RuleView>, response: Response, n: nat)
    requires 0 < n <= |views|
    requires Traverse(views, response, n).failure.None?
    ensures var u := Traverse(views, response, n - 1);
      var run := RunRule(views[n - 1], n - 1, response, Claimed(u.perRule));
      u.failure.None? && run.Ran? &&
      Traverse(views, response, n) == Traversal(u.perRule + [run.links], u.items + run.outputs, None)
  {
  }

  /**
   * Follow outputs are ordered by rule, then by `process_links` order: the
   * `j`-th link rule `k` kept gives the output at position (links kept by
   * earlier rules) + `j`, and that output is what `process_request` returned
   * for the request built from the link (None included).
   */
  lemma FollowElement(views: seq<RuleView>, response: Response, k: nat, j: nat)
    requires k < |views|
    requires Traverse(views, response, |views|).failure.None?
    requires j < |Traverse(views, response, |views|).perRule[k]|
    ensures var t := Traverse(views, response, |views|);
      var link := t.perRule[k][j];
      views[k].processRequest.Fn? &&
      TotalLength(t.perRule[..k]) + j < |t.items| &&
      t.items[TotalLength(t.perRule[..k]) + j]
        == AsOutput(views[k].processRequest.f(BuildRequest(k, link), response))
  {
    var t := Traverse(views, response, |views|);
    var links := t.perRule[k];
    RuleTurn(views, response, |views|, k);
    TraversePrefix(views, response, k, |views|);
    TraversePrefix(views, response, k + 1, |views|);
    FollowCount(views, response, k);
    var before := Traverse(views, response, k).items;
    var mine := RuleOutputs(views[k], k, links, response);
    assert views[k].processRequest.Fn? by {
      RanWithLinksIsRunnable(views[k], k, response, Claimed(t.perRule[..k]));
    }
    RuleOutputAt(views[k], k, links, response, j);
    PrefixIndex(before, mine, t.items, j);
  }

  /** A rule's turn that kept some link had a callable `process_request`. */
  lemma RanWithLinksIsRunnable(v: RuleView, k: nat, response: Response, seen: set<Link>)
    requires RunRule(v, k, response, seen).Ran? && RunRule(v, k, response, seen).links != []
    ensures v.processRequest.Fn?
  {
  }

  lemma RuleOutputAt(v: RuleView, k: nat, links: seq<Link>, response: Response, j: nat)
    requires v.processRequest.Fn? && j < |links|
    ensures |RuleOutputs(v, k, links, response)| == |links|
    ensures RuleOutputs(v, k, links, response)[j] == AsOutput(v.processRequest.f(BuildRequest(k, links[j]), response))
  {
  }

  lemma PrefixIndex(before: seq<Output>, mine: seq<Output>, whole: seq<Output>, j: nat)
    requires before + mine <= whole && j < |mine|
    ensures |before| + j < |whole| && whole[|before| + j] == mine[j]
  {
    assert (before + mine)[|before| + j] == mine[j];
  }

  /** Every link a rule kept had not been kept by any earlier rule, when its filter only drops links. */
  lemma NoLinkFollowedTwice(views: seq<RuleView>, response: Response, i: nat, k: nat, l: Link)
    requires i < k < |views|
    requires KeepsOnlyGiven(views[k])
    requires Traverse(views, response, |views|).failure.None?
    requires l in Traverse(views, response, |views|).perRule[k]
    ensures l !in Traverse(views, response, |views|).perRule[i]
  {
    var t := Traverse(views, response, |views|);
    RuleTurn(views, response, |views|, k);
    var earlier := t.perRule[..k];
    var candidates := Unclaimed(views[k].linkExtractor(response), Claimed(earlier));
    assert t.perRule[k] == views[k].processLinks.f(candidates);
    assert l in candidates;
    UnclaimedMembers(views[k].linkExtractor(response), Claimed(earlier));
    ClaimedMembers(earlier, l);
    assert earlier[i] == t.perRule[i];
  }

  /** A link a rule kept was extracted by that rule and kept by no earlier rule, when its filter only drops links. */
  lemma KeptWasExtracted(views: seq<RuleView>, response: Response, k: nat, l: Link)
    requires k < |views|
    requires KeepsOnlyGiven(views[k])
    requires Traverse(views, response, |views|).failure.None?
    requires l in Traverse(views, response, |views|).perRule[k]
    ensures l in views[k].linkExtractor(response)
    ensures l !in Claimed(Traverse(views, response, |views|).perRule[..k])
  {
    var t := Traverse(views, response, |views|);
    RuleTurn(views, response, |views|, k);
    var seen := Claimed(t.perRule[..k]);
    var candidates := Unclaimed(views[k].linkExtractor(response), seen);
    assert t.perRule[k] == views[k].processLinks.f(candidates);
    UnclaimedMembers(views[k].linkExtractor(response), seen);
  }

  /** With pass-through filters, a link a rule extracts is kept by that rule or an earlier one. */
  lemma ExtractedIsKept(views: seq<RuleView>, response: Response, k: nat, l: Link)
    requires k < |views|
    requires PassesAll(views[k])
    requires Traverse(views, response, |views|).failure.None?
    requires l in views[k].linkExtractor(response)
    ensures exists i :: 0 <= i <= k && l in Traverse(views, response, |views|).perRule[i]
  {
    var t := Traverse(views, response, |views|);
    RuleTurn(views, response, |views|, k);
    var earlier := t.perRule[..k];
    var candidates := Unclaimed(views[k].linkExtractor(response), Claimed(earlier));
    assert t.perRule[k] == candidates;
    UnclaimedMembers(views[k].linkExtractor(response), Claimed(earlier));
    ClaimedMembers(earlier, l);
    if l in Claimed(earlier) {
      var i :| 0 <= i < k && l in earlier[i];
      assert l in t.perRule[i];
    } else {
      assert l in t.perRule[k];
    }
  }

  /**
   * With pass-through `process_links` and callable `process_request`
   * everywhere, a link is followed by rule `k` exactly when rule `k`
   * extracts it and no earlier rule does.
   */
  lemma FirstExtractorClaims(views: seq<RuleView>, response: Response, k: nat, l: Link)
    requires k < |views|
    requires forall i :: 0 <= i < |views| ==> Runnable(views[i]) && PassesAll(views[i])
    ensures Traverse(views, response, |views|).failure.None?
    ensures l in Traverse(views, response, |views|).perRule[k]
      <==> l in views[k].linkExtractor(response) && forall i :: 0 <= i < k ==> l !in views[i].linkExtractor(response)
  {
    RunnableNeverFails(views, response, |views|);
    var t := Traverse(views, response, |views|);
    var earlier := t.perRule[..k];
    if l in t.perRule[k] {
      KeptWasExtracted(views, response, k, l);
      forall i | 0 <= i < k
        ensures l !in views[i].linkExtractor(response)
      {
        if l in views[i].linkExtractor(response) {
          ExtractedIsKept(views, response, i, l);
          var i' :| 0 <= i' <= i && l in t.perRule[i'];
          ClaimedMembers(earlier, l);
          assert false;
        }
      }
    }
    if l in views[k].linkExtractor(response) && forall i :: 0 <= i < k ==> l !in views[i].linkExtractor(response) {
      ExtractedIsKept(views, response, k, l);
      var i :| 0 <= i <= k && l in t.perRule[i];
      if i < k {
        KeptWasExtracted(views, response, i, l);
        assert false;
      }
    }
  }

  /**
   * A rule whose `process_links` raises stops the traversal: the outputs
   * of the earlier rules are kept, the error is the TypeError of calling
   * what the field holds, and later rules never run.
   */
  lemma FirstBrokenRuleRaises(views: seq<RuleView>, response: Response, k: nat)
    requires k < |views|
    requires !views[k].processLinks.Fn?
    requires forall i :: 0 <= i < k ==> Runnable(views[i])
    requires response.isHtml
    ensures Follow(views, response)
      == Stream(Traverse(views, response, k).items, Some(CallError(views[k].processLinks)))
  {
    RunnableNeverFails(views[..k], response, k);
    TraverseSamePrefix(views, views[..k], response, k);
    TraverseStops(views, response, k + 1, |views|);
  }

  /** The traversal of the first `n` rules only depends on those rules. */
  lemma {:induction false} TraverseSamePrefix(views: seq<RuleView>, others: seq<RuleView>, response: Response, n: nat)
    requires n <= |views| && n <= |others|
    requires views[..n] == others[..n]
    ensures Traverse(views, response, n) == Traverse(others, response, n)
  {
    if n > 0 {
      assert views[..n - 1] == others[..n - 1];
      assert views[n - 1] == others[n - 1];
      TraverseSamePrefix(views, others, response, n - 1);
    }
  }

  /**
   * A rule built with no arguments follows every link of an HTML page, in
   * page order (keeping any repeats the extractor returns), each request routed back to rule 0.
   */
  lemma DefaultRuleFollowsEveryLink(rule: RuleView, response: Response)
    requires response.isHtml
    requires forall r :: rule.linkExtractor(r) == r.links
    requires PassesAll(rule) && rule.processRequest.Fn?
    requires forall q, r :: rule.processRequest.f(q, r) == Some(q)
    ensures Follow([rule], response).failure.None?
    ensures Follow([rule], response).items
      == seq(|response.links|, j requires 0 <= j < |response.links| => Req(BuildRequest(0, response.links[j])))
  {
    var links := response.links;
    UnclaimedMembers(links, {});
    var t := Traverse([rule], response, 1);
    assert Traverse([rule], response, 0) == Traversal([], [], None);
    assert t == Traversal([links], RuleOutputs(rule, 0, links, response), None);
  }

  /**
   * A link that rule 0 extracts but its `process_links` drops is not marked
   * seen, so rule 1, which extracts it too, follows it.
   */
  lemma FilteredLinkReclaimedByLaterRule(views: seq<RuleView>, response: Response, link: Link)
    requires response.isHtml && |views| == 2
    requires views[0].linkExtractor(response) == [link] && views[1].linkExtractor(response) == [link]
    requires views[0].processLinks.Fn? && views[0].processLinks.f([link]) == []
    requires PassesAll(views[1]) && views[1].processRequest.Fn?
    requires forall q, r :: views[1].processRequest.f(q, r) == Some(q)
    ensures Follow(views, response) == Stream([Req(BuildRequest(1, link))], None)
  {
    UnclaimedMembers([link], {});
    assert Traverse(views, response, 0) == Traversal([], [], None);
    assert RunRule(views[0], 0, response, {}) == Ran([], []);
    TraverseRuns(views, response, 0, [], [], [], []);
    assert Claimed([[]]) == {};
    var request := Req(BuildRequest(1, link));
    assert RuleOutputs(views[1], 1, [link], response) == [request];
    assert RunRule(views[1], 1, response, {}) == Ran([link], [request]);
    TraverseRuns(views, response, 1, [[]], [], [link], [request]);
  }

  /**
   * With the pass-through `process_results`, a falsy direct return
   * contributes nothing, an asynchronous generator contributes everything
   * it yields, and an awaited value is flattened as is.
   */
  lemma NormalizeWithoutHook(result: CallbackResult, response: Response, hook: ResultsHook)
    requires forall p :: hook(response, p) == p
    ensures result.Returned? && Falsy(result.produced) ==> Normalize(result, response, hook) == []
    ensures result.Returned? && !Falsy(result.produced) ==>
      Normalize(result, response, hook) == IterateOutput(result.produced)
    ensures result.AsyncGenerator? ==> Normalize(result, response, hook) == result.outputs
    ensures result.Coroutine? ==> Normalize(result, response, hook) == IterateOutput(result.awaited)
  {
  }
}

=== FILE: files.dfy ===
/**
 * The deterministic parts of the files pipeline (`scrapy/pipelines/files.py`):
 * the HTTP-header to botocore keyword mapping and the upload call of the
 * S3 store, S3 and GCS URI splitting, the filesystem store's paths and its
 * per-spider cache of created directories, and the pipeline's download
 * classification, stats counters, request building and result filtering.
 */
module Files {
  import opened Wrappers
  import opened Py
  import opened Text
  import Http

  // ---------------------------------------------------------------------
  // S3: header mapping
  // ---------------------------------------------------------------------

  /** The HTTP headers the S3 store can pass to botocore, and the keyword each becomes. */
  const BOTOCORE_HEADERS: seq<(string, string)> := [
    ("Content-Type", "ContentType"),
    ("Cache-Control", "CacheControl"),
    ("Content-Disposition", "ContentDisposition"),
    ("Content-Encoding", "ContentEncoding"),
    ("Content-Language", "ContentLanguage"),
    ("Content-Length", "ContentLength"),
    ("Content-MD5", "ContentMD5"),
    ("Expires", "Expires"),
    ("X-Amz-Grant-Full-Control", "GrantFullControl"),
    ("X-Amz-Grant-Read", "GrantRead"),
    ("X-Amz-Grant-Read-ACP", "GrantReadACP"),
    ("X-Amz-Grant-Write-ACP", "GrantWriteACP"),
    ("X-Amz-Object-Lock-Legal-Hold", "ObjectLockLegalHoldStatus"),
    ("X-Amz-Object-Lock-Mode", "ObjectLockMode"),
    ("X-Amz-Object-Lock-Retain-Until-Date", "ObjectLockRetainUntilDate"),
    ("X-Amz-Request-Payer", "RequestPayer"),
    ("X-Amz-Server-Side-Encryption", "ServerSideEncryption"),
    ("X-Amz-Server-Side-Encryption-Aws-Kms-Key-Id", "SSEKMSKeyId"),
    ("X-Amz-Server-Side-Encryption-Context", "SSEKMSEncryptionContext"),
    ("X-Amz-Server-Side-Encryption-Customer-Algorithm", "SSECustomerAlgorithm"),
    ("X-Amz-Server-Side-Encryption-Customer-Key", "SSECustomerKey"),
    ("X-Amz-Server-Side-Encryption-Customer-Key-Md5", "SSECustomerKeyMD5"),
    ("X-Amz-Storage-Class", "StorageClass"),
    ("X-Amz-Tagging", "Tagging"),
    ("X-Amz-Website-Redirect-Location", "WebsiteRedirectLocation")
  ]

  /** `S3FilesStore.POLICY` */
  const S3_POLICY := "private"

  /** `S3FilesStore.HEADERS`, in insertion order. */
  const S3_DEFAULT_HEADERS: seq<(string, Value)> := [("Cache-Control", StrValue("max-age=172800"))]

  /** A case-insensitive lookup in a table of (header, keyword) pairs: the first entry whose header matches. */
  function LookupIn(table: seq<(string, string)>, key: string): Option<string>
  {
    if table == [] then None
    else if Lower(table[0].0) == Lower(key) then Some(table[0].1)
    else LookupIn(table[1..], key)
  }

  /** The lookup finds a keyword exactly when some entry's header matches, ignoring case, and the first match wins. */
  lemma {:induction false} LookupInMeaning(table: seq<(string, string)>, key: string)
    ensures LookupIn(table, key).Some? <==> exists i :: 0 <= i < |table| && Lower(table[i].0) == Lower(key)
    ensures LookupIn(table, key).Some? ==>
      exists i :: 0 <= i < |table| && Lower(table[i].0) == Lower(key) && LookupIn(table, key).value == table[i].1
        && forall j :: 0 <= j < i ==> Lower(table[j].0) != Lower(key)
  {
    if table != [] && Lower(table[0].0) != Lower(key) {
      LookupInMeaning(table[1..], key);
      assert forall i :: 0 <= i < |table| - 1 ==> table[1..][i] == table[i + 1];
      if LookupIn(table, key).Some? {
        var i :| 0 <= i < |table[1..]| && Lower(table[1..][i].0) == Lower(key)
          && LookupIn(table, key).value == table[1..][i].1
          && forall j :: 0 <= j < i ==> Lower(table[1..][j].0) != Lower(key);
        assert Lower(table[i + 1].0) == Lower(key);
      }
    }
  }

  /** The botocore keyword for a header, matched case-insensitively; None when it is not supported. */
  function BotocoreName(header: string): Option<string>
  {
    LookupIn(BOTOCORE_HEADERS, header)
  }

  /** The TypeError an unsupported header raises. */
  function Unsupported(header: string): Exception
  {
    TypeError("Header \"" + header + "\" is not supported by botocore")
  }

  /** `_headers_to_botocore_kwargs` against a mapping table, on values: headers in order, the first unsupported one raising. */
  function KwargsWith(table: seq<(string, string)>, headers: seq<(string, Value)>): Result<map<string, Value>, Exception>
  {
    if headers == [] then Success(map[])
    else match KwargsWith(table, headers[..|headers| - 1])
      case Failure(e) => Failure(e)
      case Success(extra) =>
        var (key, value) := headers[|headers| - 1];
        match LookupIn(table, key)
        case None => Failure(Unsupported(key))
        case Some(kwarg) => Success(extra[kwarg := value])
  }

  /** `_headers_to_botocore_kwargs`, on values. */
  function KwargsSpec(headers: seq<(string, Value)>): Result<map<string, Value>, Exception>
  {
    KwargsWith(BOTOCORE_HEADERS, headers)
  }

  /** `S3FilesStore._headers_to_botocore_kwargs` */
  method HeadersToBotocoreKwargs(headers: seq<(string, Value)>) returns (r: Result<map<string, Value>, Exception>)
    ensures r == KwargsSpec(headers)
  {
    var extra: map<string, Value> := map[];
    for i := 0 to |headers|
      invariant KwargsSpec(headers[..i]) == Success(extra)
    {
      assert headers[..i + 1][..i] == headers[..i];
      var (key, value) := headers[i];
      var kwarg := BotocoreName(key);
      if kwarg.None? {
        KwargsFailureSticks(headers, i + 1);
        return Failure(Unsupported(key));
      }
      extra := extra[kwarg.value := value];
    }
    assert headers[..|headers|] == headers;
    return Success(extra);
  }

  /** Once a prefix of the headers fails, the whole list fails the same way. */
  lemma {:induction false} KwargsFailureSticks(headers: seq<(string, Value)>, n: nat)
    requires n <= |headers|
    requires KwargsSpec(headers[..n]).Failure?
    ensures KwargsSpec(headers) == KwargsSpec(headers[..n])
    decreases |headers| - n
  {
    if n < |headers| {
      assert headers[..n + 1][..n] == headers[..n];
      KwargsFailureSticks(headers, n + 1);
    } else {
      assert headers[..n] == headers;
    }
  }

  /**
   * The mapping fails exactly when some header is unsupported, and then
   * with the TypeError naming the first such header.
   */
  lemma {:induction false} KwargsFailure(table: seq<(string, string)>, headers: seq<(string, Value)>)
    ensures KwargsWith(table, headers).Failure? <==>
      exists i :: 0 <= i < |headers| && LookupIn(table, headers[i].0).None?
    ensures KwargsWith(table, headers).Failure? ==>
      exists i :: 0 <= i < |headers| && LookupIn(table, headers[i].0).None?
        && (forall j :: 0 <= j < i ==> LookupIn(table, headers[j].0).Some?)
        && KwargsWith(table, headers).error == Unsupported(headers[i].0)
  {
    if headers != [] {
      var front := headers[..|headers| - 1];
      KwargsFailure(table, front);
      assert forall j :: 0 <= j < |front| ==> front[j] == headers[j];
    }
  }

  /** On success every header is supported, and the keywords are exactly those of the given headers. */
  lemma {:induction false} KwargsSuccess(table: seq<(string, string)>, headers: seq<(string, Value)>)
    requires KwargsWith(table, headers).Success?
    ensures forall i :: 0 <= i < |headers| ==> LookupIn(table, headers[i].0).Some?
    ensures forall kw :: kw in KwargsWith(table, headers).value <==>
      exists i :: 0 <= i < |headers| && LookupIn(table, headers[i].0) == Some(kw)
  {
    if headers != [] {
      var front := headers[..|headers| - 1];
      KwargsSuccess(table, front);
      assert forall j :: 0 <= j < |front| ==> front[j] == headers[j];
    }
  }

  /** On success, each keyword holds the value of the last header that maps to it. */
  lemma {:induction false} KwargsLastWins(table: seq<(string, string)>, headers: seq<(string, Value)>, i: nat)
    requires KwargsWith(table, headers).Success?
    requires i < |headers|
    requires forall j :: i < j < |headers| ==> LookupIn(table, headers[j].0) != LookupIn(table, headers[i].0)
    ensures LookupIn(table, headers[i].0).Some?
    ensures LookupIn(table, headers[i].0).value in KwargsWith(table, headers).value
    ensures KwargsWith(table, headers).value[LookupIn(table, headers[i].0).value] == headers[i].1
  {
    var front := headers[..|headers| - 1];
    var (key, value) := headers[|headers| - 1];
    assert KwargsWith(table, front).Success?;
    var kw := LookupIn(table, key);
    assert kw.Some?;
    if i < |headers| - 1 {
      assert front[i] == headers[i];
      assert forall j :: i < j < |front| ==> front[j] == headers[j];
      KwargsLastWins(table, front, i);
      assert LookupIn(table, headers[i].0) != kw;
    }
  }

  /** `s.lower()` twice is `s.lower()` once. */
  lemma LowerIdempotent(s: string)
    ensures Lower(Lower(s)) == Lower(s)
  {
  }

  /** The lookup ignores the case of header names. */
  lemma {:induction false} LookupIgnoresCase(table: seq<(string, string)>, header: string)
    ensures LookupIn(table, Lower(header)) == LookupIn(table, header)
  {
    LowerIdempotent(header);
    if table != [] {
      LookupIgnoresCase(table[1..], header);
    }
  }

  /** `Cache-Control`, in any case, is the second entry of the table. */
  lemma CacheControlSupported(header: string)
    requires Lower(header) == Lower("Cache-Control")
    ensures BotocoreName(header) == Some("CacheControl")
  {
    assert Lower("Content-Type")[2] == 'n';
    assert Lower(header)[2] == 'c';
    assert LookupIn(BOTOCORE_HEADERS, header) == LookupIn(BOTOCORE_HEADERS[1..], header);
  }

  /** The default headers map to a two-day `CacheControl`. */
  lemma DefaultHeadersSupported()
    ensures KwargsSpec(S3_DEFAULT_HEADERS) == Success(map["CacheControl" := StrValue("max-age=172800")])
  {
    CacheControlSupported("Cache-Control");
    assert S3_DEFAULT_HEADERS[..0] == [];
  }

  // ---------------------------------------------------------------------
  // S3 and GCS locations
  // ---------------------------------------------------------------------

  /** Where a store keeps its objects: a bucket and a key prefix. */
  datatype Location = Location(bucket: string, prefix: string)

  /** The ValueError a one-part split raises when unpacked into two names. */
  const UNPACK_ERROR := ValueError("not enough values to unpack (expected 2, got 1)")

  /** `bucket, prefix = rest.split("/", 1)` */
  function SplitBucket(rest: string): (r: Result<Location, Exception>)
    ensures r.Success? <==> '/' in rest
    ensures r.Success? ==> rest == r.value.bucket + "/" + r.value.prefix && '/' !in r.value.bucket
    ensures r.Failure? ==> r.error == UNPACK_ERROR
  {
    match SplitOnce(rest, "/")
    case None =>
      assert '/' !in rest by {
        forall j | 0 <= j < |rest|
          ensures rest[j] != '/'
        {
          assert !OccursAt(rest, "/", j);
          assert rest[j..j + 1] == [rest[j]];
        }
      }
      Failure(UNPACK_ERROR)
    case Some((bucket, prefix)) =>
      assert '/' !in bucket by {
        forall j | 0 <= j < |bucket|
          ensures bucket[j] != '/'
        {
          assert !OccursAt(rest, "/", j);
          assert rest[j] == bucket[j];
          assert rest[j..j + 1] == [rest[j]];
        }
      }
      assert rest[|bucket|] == '/';
      Success(Location(bucket, prefix))
  }

  /** The S3 store's URI check and split: `s3://bucket/prefix`. */
  function ParseS3Uri(uri: string): (r: Result<Location, Exception>)
    ensures !StartsWith(uri, "s3://") ==> r == Failure(ValueError("Incorrect URI scheme in " + uri + ", expected 's3'"))
    ensures StartsWith(uri, "s3://") ==> r == SplitBucket(uri[5..])
  {
    if !StartsWith(uri, "s3://") then Failure(ValueError("Incorrect URI scheme in " + uri + ", expected 's3'"))
    else SplitBucket(uri[5..])
  }

  /** The GCS store's split: the first five characters are skipped whatever they are. */
  function ParseGcsUri(uri: string): (r: Result<Location, Exception>)
    ensures r.Success? <==> |uri| >= 5 && '/' in uri[5..]
    ensures r.Success? ==> uri[5..] == r.value.bucket + "/" + r.value.prefix && '/' !in r.value.bucket
    ensures r.Failure? ==> r.error == UNPACK_ERROR
  {
    SplitBucket(if |uri| >= 5 then uri[5..] else "")
  }

  /** Splitting `bucket/prefix` gives back the bucket and prefix, when the bucket holds no `/`. */
  lemma SplitBucketRoundTrip(bucket: string, prefix: string)
    requires '/' !in bucket
    ensures SplitBucket(bucket + "/" + prefix) == Success(Location(bucket, prefix))
  {
    var rest := bucket + "/" + prefix;
    var r := SplitBucket(rest);
    assert rest[|bucket|] == '/';
    var b := r.value.bucket;
    assert |b| == |bucket|;
    assert b == rest[..|b|] == bucket;
    assert r.value.prefix == rest[|b| + 1..] == prefix;
  }

  /** An S3 URI built from a bucket without `/` and any prefix parses back to them. */
  lemma S3UriRoundTrip(bucket: string, prefix: string)
    requires '/' !in bucket
    ensures ParseS3Uri("s3://" + bucket + "/" + prefix) == Success(Location(bucket, prefix))
  {
    var uri := "s3://" + bucket + "/" + prefix;
    assert uri[..5] == "s3://";
    assert uri[5..] == bucket + "/" + prefix;
    SplitBucketRoundTrip(bucket, prefix);
  }

  /** The GCS split does not look at the scheme: any five-character scheme gives the same location. */
  lemma GcsSchemeIgnored(scheme: string, rest: string)
    requires |scheme| == 5
    ensures ParseGcsUri(scheme + rest) == ParseGcsUri("gs://" + rest)
  {
    assert (scheme + rest)[5..] == rest;
    assert ("gs://" + rest)[5..] == rest;
  }

  /** The object key of a stored file: the store's prefix followed by the file's path. */
  function KeyName(location: Location, path: string): (key: string)
    ensures |key| == |location.prefix| + |path|
    ensures key[..|location.prefix|] == location.prefix && key[|location.prefix|..] == path
  {
    location.prefix + path
  }

  /** The `put_object` call the S3 store makes. */
  datatype PutObject = PutObject(
    bucket: string, key: string, body: seq<bv8>, metadata: map<string, string>, acl: string, extra: map<string, Value>)

  /** `S3FilesStore.persist_file`, as the upload call it makes (or the TypeError it raises first). */
  method S3PersistFile(location: Location, path: string, buf: seq<bv8>, meta: Option<map<string, string>>,
                       headers: Option<seq<(string, Value)>>) returns (r: Result<PutObject, Exception>)
    ensures var callerHeaders := if headers.Some? then headers.value else [];
      r.Success? <==> callerHeaders == [] || KwargsSpec(callerHeaders).Success?
    ensures r.Failure? ==> r.error == KwargsSpec(headers.value).error
    ensures r.Success? ==>
      r.value.bucket == location.bucket && r.value.key == location.prefix + path && r.value.body == buf
      && r.value.acl == S3_POLICY
      && r.value.metadata == (if meta.Some? then meta.value else map[])
    ensures r.Success? ==> (r.value.extra ==
      KwargsSpec(S3_DEFAULT_HEADERS).value
        + (if headers.Some? && headers.value != [] then KwargsSpec(headers.value).value else map[]))
  {
    var key := KeyName(location, path);
    var defaults := HeadersToBotocoreKwargs(S3_DEFAULT_HEADERS);
    DefaultHeadersSupported();
    var extra := defaults.value;
    if headers.Some? && headers.value != [] {
      var given := HeadersToBotocoreKwargs(headers.value);
      if given.Failure? {
        return Failure(given.error);
      }
      extra := extra + given.value;
    }
    var metadata := if meta.Some? then meta.value else map[];
    return Success(PutObject(location.bucket, key, buf, metadata, S3_POLICY, extra));
  }

  /** A caller's `cache-control` header, in whatever case, overrides the store's default. */
  lemma CallerHeaderWins(header: string, value: Value)
    requires Lower(header) == Lower("Cache-Control")
    ensures KwargsSpec([(header, value)]).Success?
    ensures KwargsSpec(S3_DEFAULT_HEADERS).value + KwargsSpec([(header, value)]).value == map["CacheControl" := value]
  {
    DefaultHeadersSupported();
    CacheControlSupported(header);
    assert [(header, value)][..0] == [];
  }

  /** `GCSFilesStore._get_content_type` */
  function ContentType(headers: Option<map<string, string>>): (r: string)
    ensures headers.Some? && "Content-Type" in headers.value ==> r == headers.value["Content-Type"]
    ensures headers.None? || "Content-Type" !in headers.value ==> r == "application/octet-stream"
  {
    if headers.Some? && headers.value != map[] && "Content-Type" in headers.value then headers.value["Content-Type"]
    else "application/octet-stream"
  }

  /** `GCSFilesStore._get_blob_path` */
  function BlobPath(location: Location, path: string): (r: string)
    ensures r == KeyName(location, path)
  {
    location.prefix + path
  }

  // ---------------------------------------------------------------------
  // Filesystem store
  // ---------------------------------------------------------------------

  /** A POSIX path as `pathlib` holds it: absolute or not, and its components. */
  datatype FsPath = FsPath(absolute: bool, parts: seq<string>)

  /** Path components: empty and `.` components are dropped. */
  function Components(segments: seq<string>): (r: seq<string>)
    ensures forall i :: 0 <= i < |r| ==> r[i] != "" && r[i] != "." && r[i] in segments
    ensures (forall i :: 0 <= i < |segments| ==> segments[i] != "" && segments[i] != ".") ==> r == segments
  {
    if segments == [] then []
    else
      var rest := Components(segments[1..]);
      assert forall s :: s in segments[1..] ==> s in segments;
      if segments[0] == "" || segments[0] == "." then rest else [segments[0]] + rest
  }

  /** Dropping components works segment by segment, so the kept ones stay in order. */
  lemma {:induction false} ComponentsAppend(a: seq<string>, b: seq<string>)
    ensures Components(a + b) == Components(a) + Components(b)
  {
    if a != [] {
      assert (a + b)[1..] == a[1..] + b;
      ComponentsAppend(a[1..], b);
    } else {
      assert a + b == b;
    }
  }

  /** A segment is kept exactly when it occurs and is neither empty nor `.`. */
  lemma {:induction false} ComponentsMembers(segments: seq<string>, s: string)
    ensures s in Components(segments) <==> s in segments && s != "" && s != "."
  {
    if segments != [] {
      ComponentsMembers(segments[1..], s);
      assert segments == [segments[0]] + segments[1..];
    }
  }

  /** `Path(s)` */
  function ParsePath(s: string): FsPath
  {
    FsPath(|s| > 0 && s[0] == '/', Components(Split(s, '/')))
  }

  /** `Path(base, *names)` for names that hold no `/`. */
  function JoinPath(base: FsPath, names: seq<string>): (r: FsPath)
    ensures r.absolute == base.absolute && |r.parts| >= |base.parts| && r.parts[..|base.parts|] == base.parts
    ensures r.parts[|base.parts|..] == Components(names)
  {
    FsPath(base.absolute, base.parts + Components(names))
  }

  /** `str(path)` */
  function Render(p: FsPath): string
  {
    if p.absolute then "/" + Join(p.parts, '/')
    else if p.parts == [] then "."
    else Join(p.parts, '/')
  }

  /** `path.parent` */
  function Parent(p: FsPath): (r: FsPath)
    ensures r.absolute == p.absolute
    ensures p.parts != [] ==> r.parts + [p.parts[|p.parts| - 1]] == p.parts
  {
    FsPath(p.absolute, if p.parts == [] then [] else p.parts[..|p.parts| - 1])
  }

  /** A relative path written without empty or `.` components. */
  predicate Clean(s: string)
  {
    s != "" && s[0] != '/' && forall i :: 0 <= i < |Split(s, '/')| ==> Split(s, '/')[i] != "" && Split(s, '/')[i] != "."
  }

  /** Joining two non-empty lists of parts puts the separator between their joins. */
  lemma {:induction false} JoinAppend(a: seq<string>, b: seq<string>, c: char)
    requires a != [] && b != []
    ensures Join(a + b, c) == Join(a, c) + [c] + Join(b, c)
  {
    if |a| > 1 {
      assert (a + b)[1..] == a[1..] + b;
      JoinAppend(a[1..], b, c);
    } else {
      assert (a + b)[1..] == b;
    }
  }

  /** The text after the first `://`, when there is one. */
  function StripScheme(basedir: string): (r: string)
    ensures Contains(basedir, "://") ==> exists scheme :: basedir == scheme + "://" + r
    ensures !Contains(basedir, "://") ==> r == basedir
    ensures Find(basedir, "://").Some? ==> r == basedir[Find(basedir, "://").value + 3..]
  {
    match SplitOnce(basedir, "://")
    case None => basedir
    case Some((_, rest)) => rest
  }

  /** A `file://` style base directory loses its scheme, and keeps the rest whole. */
  lemma StripSchemeRoundTrip(scheme: string, rest: string)
    requires ':' !in scheme
    ensures StripScheme(scheme + "://" + rest) == rest
  {
    var s := scheme + "://" + rest;
    assert OccursAt(s, "://", |scheme|);
    var r := SplitOnce(s, "://");
    var a := r.value.0;
    forall j | 0 <= j < |scheme|
      ensures !OccursAt(s, "://", j)
    {
      assert s[j] == scheme[j] != ':';
      if j + 3 <= |s| {
        assert s[j..j + 3][0] == s[j];
        assert "://"[0] == ':';
      }
    }
    assert OccursAt(s, "://", |a|);
    assert |a| == |scheme|;
    assert a == s[..|a|] == scheme;
    assert r.value.1 == s[|a| + 3..] == rest;
  }

  /** A spider, as the key of the created-directory cache. */
  datatype SpiderInfo = SpiderInfo(spider: string)

  /** The set of directories created for a spider (`defaultdict(set)` lookup). */
  function SeenFor(cache: map<SpiderInfo, set<string>>, info: SpiderInfo): set<string>
  {
    if info in cache then cache[info] else {}
  }

  /** Whether `_mkdir(dirname, domain)` checks the disk: always without a spider, and for a spider only the first time. */
  predicate Probes(cache: map<SpiderInfo, set<string>>, name: string, domain: Option<SpiderInfo>)
  {
    domain.None? || name !in SeenFor(cache, domain.value)
  }

  /** The cache after `_mkdir(dirname, domain)`. */
  function Remember(cache: map<SpiderInfo, set<string>>, name: string, domain: Option<SpiderInfo>): map<SpiderInfo, set<string>>
  {
    match domain
    case None => cache
    case Some(info) => if name in SeenFor(cache, info) then cache else cache[info := SeenFor(cache, info) + {name}]
  }

  /**
   * After `_mkdir` for a spider the directory is remembered for that
   * spider; other spiders' sets are untouched; without a spider nothing is
   * remembered; and a second call for the same spider and directory does
   * not check the disk again.
   */
  lemma RememberMeaning(cache: map<SpiderInfo, set<string>>, name: string, domain: Option<SpiderInfo>)
    ensures domain.Some? ==> name in SeenFor(Remember(cache, name, domain), domain.value)
    ensures domain.Some? ==> SeenFor(Remember(cache, name, domain), domain.value) == SeenFor(cache, domain.value) + {name}
    ensures forall other :: Some(other) != domain ==> SeenFor(Remember(cache, name, domain), other) == SeenFor(cache, other)
    ensures domain.None? ==> Remember(cache, name, domain) == cache
    ensures domain.Some? ==> !Probes(Remember(cache, name, domain), name, domain)
  {
  }

  /**
   * The filesystem store. The disk is modelled by the set of directories
   * that exist, the list of existence checks made, and the files written.
   */
  class FSFilesStore {
    var basedir: string
    /** `created_directories`: the directories already made, per spider. */
    var createdDirectories: map<SpiderInfo, set<string>>
    /** The directories that exist on disk. */
    var directories: set<string>
    /** Every directory whose existence was checked, in order. */
    var existenceChecks: seq<string>
    /** The files on disk and their contents. */
    var files: map<string, seq<bv8>>

    /**
     * `FSFilesStore.__init__`: the text after a `://` scheme separator is
     * the base directory, which is made at once (with no spider, so it is
     * not remembered).
     */
    constructor (basedir: string, disk: set<string>, stored: map<string, seq<bv8>>)
      ensures this.basedir == StripScheme(basedir)
      ensures createdDirectories == map[]
      ensures directories == disk + {Render(ParsePath(StripScheme(basedir)))}
      ensures existenceChecks == [Render(ParsePath(StripScheme(basedir)))]
      ensures files == stored
      ensures Valid()
    {
      this.basedir := StripScheme(basedir);
      createdDirectories := map[];
      directories := disk;
      existenceChecks := [];
      files := stored;
      new;
      Mkdir(ParsePath(this.basedir), None);
    }

    /** Every directory remembered for a spider exists on disk. */
    ghost predicate Valid()
      reads this
    {
      forall info :: info in createdDirectories ==> createdDirectories[info] <= directories
    }

    /** `_get_filesystem_path`: the `/`-separated parts of `path` under the base directory. */
    function FilesystemPath(path: string): (r: FsPath)
      reads this
      ensures r.absolute <==> |basedir| > 0 && basedir[0] == '/'
      ensures r.parts == ParsePath(basedir).parts + Components(Split(path, '/'))
      ensures (Clean(basedir) || (|basedir| > 1 && basedir[0] == '/' && Clean(basedir[1..]))) && Clean(path) ==>
        Render(r) == basedir + "/" + path
    {
      var r := JoinPath(ParsePath(basedir), Split(path, '/'));
      if (Clean(basedir) || (|basedir| > 1 && basedir[0] == '/' && Clean(basedir[1..]))) && Clean(path) then
        FilesystemPathIsJoin(basedir, path);
        r
      else r
    }

    /**
     * `_mkdir`: unless the spider already has this directory remembered,
     * check the disk, create the directory when missing, and (for a spider)
     * remember it.
     */
    method Mkdir(dirname: FsPath, domain: Option<SpiderInfo>)
      requires Valid()
      modifies this
      ensures Valid() && Render(dirname) in directories
      ensures basedir == old(basedir) && files == old(files)
      ensures createdDirectories == Remember(old(createdDirectories), Render(dirname), domain)
      ensures Probes(old(createdDirectories), Render(dirname), domain) ==>
        directories == old(directories) + {Render(dirname)} && existenceChecks == old(existenceChecks) + [Render(dirname)]
      ensures !Probes(old(createdDirectories), Render(dirname), domain) ==>
        directories == old(directories) && existenceChecks == old(existenceChecks)
    {
      var name := Render(dirname);
      var seen := if domain.Some? then SeenFor(createdDirectories, domain.value) else {};
      if name !in seen {
        existenceChecks := existenceChecks + [name];
        if name !in directories {
          directories := directories + {name};
        }
        if domain.Some? {
          createdDirectories := createdDirectories[domain.value := seen + {name}];
        }
      }
    }

    /** `FSFilesStore.persist_file`: make the parent directory (for this spider), then write the file. */
    method PersistFile(path: string, buf: seq<bv8>, info: SpiderInfo)
      requires Valid()
      modifies this
      ensures Valid()
      ensures basedir == old(basedir)
      ensures files == old(files)[Render(FilesystemPath(path)) := buf]
      ensures createdDirectories == Remember(old(createdDirectories), Render(Parent(FilesystemPath(path))), Some(info))
      ensures directories == old(directories) + {Render(Parent(FilesystemPath(path)))}
      ensures existenceChecks ==
        if Probes(old(createdDirectories), Render(Parent(FilesystemPath(path))), Some(info))
        then old(existenceChecks) + [Render(Parent(FilesystemPath(path)))]
        else old(existenceChecks)
    {
      var absolute := FilesystemPath(path);
      var parent := Parent(absolute);
      Mkdir(parent, Some(info));
      assert FilesystemPath(path) == absolute;
      files := files[Render(absolute) := buf];
      assert FilesystemPath(path) == absolute;
    }
  }

  /** With a clean base directory and a clean path, the file lands at `basedir/path`. */
  lemma FilesystemPathIsJoin(basedir: string, path: string)
    requires Clean(basedir) || (|basedir| > 1 && basedir[0] == '/' && Clean(basedir[1..]))
    requires Clean(path)
    ensures Render(JoinPath(ParsePath(basedir), Split(path, '/'))) == basedir + "/" + path
  {
    if Clean(basedir) {
      RelativeBaseJoin(basedir, path);
    } else {
      AbsoluteBaseJoin(basedir, path);
    }
  }

  lemma RelativeBaseJoin(basedir: string, path: string)
    requires Clean(basedir) && Clean(path)
    ensures Render(JoinPath(ParsePath(basedir), Split(path, '/'))) == basedir + "/" + path
  {
    var a := Split(basedir, '/');
    var b := Split(path, '/');
    assert Components(a) == a;
    assert Components(b) == b;
    JoinAppend(a, b, '/');
  }

  lemma AbsoluteBaseJoin(basedir: string, path: string)
    requires |basedir| > 1 && basedir[0] == '/' && Clean(basedir[1..]) && Clean(path)
    ensures Render(JoinPath(ParsePath(basedir), Split(path, '/'))) == basedir + "/" + path
  {
    var a := Split(basedir[1..], '/');
    var b := Split(path, '/');
    CleanParts(path);
    AbsoluteParts(basedir);
    RenderAbsolute(a, b);
    assert basedir == "/" + basedir[1..];
  }

  /** A clean path's `/`-separated segments are all kept as parts. */
  lemma CleanParts(s: string)
    requires Clean(s)
    ensures Components(Split(s, '/')) == Split(s, '/')
  {
  }

  lemma RenderAbsolute(a: seq<string>, b: seq<string>)
    requires a != [] && b != []
    ensures Render(FsPath(true, a + b)) == "/" + Join(a, '/') + "/" + Join(b, '/')
  {
    JoinAppend(a, b, '/');
  }

  /** An absolute base directory has the parts of the text after its leading `/`. */
  lemma AbsoluteParts(basedir: string)
    requires |basedir| > 1 && basedir[0] == '/' && Clean(basedir[1..])
    ensures ParsePath(basedir) == FsPath(true, Split(basedir[1..], '/'))
    ensures Join(Split(basedir[1..], '/'), '/') == basedir[1..]
  {
    var a := Split(basedir[1..], '/');
    assert IndexOfChar(basedir, '/') == Some(0);
    assert Split(basedir, '/') == [""] + a;
    assert ([""] + a)[1..] == a;
    assert Components([""] + a) == Components(a) == a;
  }

  // ---------------------------------------------------------------------
  // The pipeline
  // ---------------------------------------------------------------------

  /** The record kept for a downloaded file. */
  datatype FileInfo = FileInfo(url: string, path: string, checksum: string, status: string)
  {
    /** The dict the item's result field holds for this file. */
    function AsValue(): Value
    {
      DictValue(map["url" := StrValue(url), "path" := StrValue(path),
                    "checksum" := StrValue(checksum), "status" := StrValue(status)])
    }
  }

  /** One entry of the results `item_completed` receives: `(True, info)` or `(False, failure)`. */
  datatype DownloadResult = Downloaded(info: FileInfo) | Failed(error: Exception)

  /** The stats key counting files by status. */
  function StatusKey(status: string): string
  {
    "file_status_count/" + status
  }

  /** A stats value, 0 when never set. */
  function Count(values: map<string, int>, key: string): int
  {
    if key in values then values[key] else 0
  }

  /** The stats after `inc_stats`. */
  function Counted(values: map<string, int>, status: string): map<string, int>
  {
    var once := values["file_count" := Count(values, "file_count") + 1];
    once[StatusKey(status) := Count(once, StatusKey(status)) + 1]
  }

  /** `inc_stats` adds one to `file_count` and one to the status counter, and to nothing else. */
  lemma CountedBumpsTwo(values: map<string, int>, status: string, key: string)
    ensures key == "file_count" ==> Count(Counted(values, status), key) == Count(values, key) + 1
    ensures key == StatusKey(status) ==> Count(Counted(values, status), key) == Count(values, key) + 1
    ensures key != "file_count" && key != StatusKey(status) ==> Count(Counted(values, status), key) == Count(values, key)
    ensures key in Counted(values, status) <==> key in values || key == "file_count" || key == StatusKey(status)
  {
    assert |StatusKey(status)| >= 18 > |"file_count"|;
  }

  /** A stats collector: named integer counters. */
  class StatsCollector {
    var values: map<string, int>

    constructor ()
      ensures values == map[]
    {
      values := map[];
    }

    /** `inc_value(key)`: add one, starting from 0. */
    method IncValue(key: string)
      modifies this
      ensures values == old(values)[key := Count(old(values), key) + 1]
    {
      values := values[key := Count(values, key) + 1];
    }
  }

  /**
   * The status of a successful download, or the FileException of a failed
   * one: a status other than 200 is checked before an empty body.
   */
  function Classify(response: Http.Response): Result<string, Exception>
  {
    if response.status != 200 then Failure(FileException("download-error"))
    else if response.body == [] then Failure(FileException("empty-content"))
    else Success(if "cached" in response.flags then "cached" else "downloaded")
  }

  /**
   * `media_downloaded`, on values. `processing` is what computing the file
   * path and storing the file (`file_path`, `file_downloaded`) gave: the
   * path and checksum, or the exception raised.
   */
  function DownloadOutcome(response: Http.Response, request: Http.Request,
                           processing: Result<(string, string), Exception>): (r: Result<FileInfo, Exception>)
    ensures r.Failure? ==> r.error.FileException?
    ensures r.Success? ==>
      processing.Success? && r.value.url == request.url && (r.value.path, r.value.checksum) == processing.value
    ensures Classify(response).Failure? ==> r == Failure(Classify(response).error)
    ensures Classify(response).Success? && processing.Failure? ==>
      r == Failure(FileException(Str(processing.error)))
  {
    match Classify(response)
    case Failure(e) => Failure(e)
    case Success(status) =>
      match processing
      case Success((path, checksum)) => Success(FileInfo(request.url, path, checksum, status))
      case Failure(FileException(m)) => Failure(FileException(m))
      case Failure(e) => Failure(FileException(Str(e)))
  }

  /**
   * Every way a download can fail ends in a FileException; a success records
   * the request URL, the stored path and checksum, and a status that is
   * `cached` exactly when the response carries the `cached` flag.
   */
  lemma DownloadOutcomeMeaning(response: Http.Response, request: Http.Request,
                               processing: Result<(string, string), Exception>)
    ensures DownloadOutcome(response, request, processing).Failure? ==>
      DownloadOutcome(response, request, processing).error.FileException?
    ensures DownloadOutcome(response, request, processing).Success? <==>
      response.status == 200 && response.body != [] && processing.Success?
    ensures response.status != 200 ==>
      DownloadOutcome(response, request, processing) == Failure(FileException("download-error"))
    ensures response.status == 200 && response.body == [] ==>
      DownloadOutcome(response, request, processing) == Failure(FileException("empty-content"))
    ensures DownloadOutcome(response, request, processing).Success? ==>
      var info := DownloadOutcome(response, request, processing).value;
      info.url == request.url && (info.path, info.checksum) == processing.value
      && (info.status == "cached" <==> "cached" in response.flags)
      && (info.status == "downloaded" <==> "cached" !in response.flags)
  {
  }

  /** `media_failed`: whatever the failure, a FileException with no message is raised. */
  function MediaFailed(failure: Http.Failure): (e: Exception)
    ensures e == FileException("")
  {
    FileException("")
  }

  /** The requests for a list of URL values; Request refuses a URL that is not a string. */
  function RequestsFor(urls: seq<Value>): (r: Result<seq<Http.Request>, Exception>)
    ensures r.Success? <==> forall i :: 0 <= i < |urls| ==> urls[i].StrValue?
    ensures r.Success? ==> (|r.value| == |urls|
      && forall i :: 0 <= i < |urls| ==> r.value[i] == Http.Request(urls[i].s, map[], Http.NoCallback, Http.NoHandler))
  {
    if urls == [] then Success([])
    else if !urls[0].StrValue? then Failure(TypeError("Request url must be str, got " + TypeName(urls[0])))
    else match RequestsFor(urls[1..])
      case Failure(e) =>
        assert exists i :: 1 <= i < |urls| && !urls[i].StrValue? by {
          var i :| 0 <= i < |urls[1..]| && !urls[1..][i].StrValue?;
          assert urls[i + 1] == urls[1..][i];
        }
        Failure(e)
      case Success(rest) =>
        assert forall i :: 1 <= i < |urls| ==> urls[i] == urls[1..][i - 1];
        Success([Http.Request(urls[0].s, map[], Http.NoCallback, Http.NoHandler)] + rest)
  }

  /** `[x for ok, x in results if ok]` */
  function Succeeded(results: seq<DownloadResult>): (r: seq<Value>)
    ensures |r| <= |results|
  {
    if results == [] then []
    else
      var rest := Succeeded(results[1..]);
      if results[0].Downloaded? then [results[0].info.AsValue()] + rest else rest
  }

  /** The kept values are exactly the successful downloads', in order. */
  lemma {:induction false} SucceededMeaning(results: seq<DownloadResult>)
    ensures forall v :: v in Succeeded(results) <==>
      exists i :: 0 <= i < |results| && results[i].Downloaded? && results[i].info.AsValue() == v
    ensures (forall i :: 0 <= i < |results| ==> results[i].Downloaded?) ==>
      Succeeded(results) == seq(|results|, i requires 0 <= i < |results| => results[i].info.AsValue())
    ensures (forall i :: 0 <= i < |results| ==> results[i].Failed?) ==> Succeeded(results) == []
  {
    if results != [] {
      SucceededMeaning(results[1..]);
      assert forall i :: 1 <= i < |results| ==> results[i] == results[1..][i - 1];
    }
  }

  /** Filtering a concatenation is the concatenation of the filtered parts (the order is kept). */
  lemma {:induction false} SucceededAppend(a: seq<DownloadResult>, b: seq<DownloadResult>)
    ensures Succeeded(a + b) == Succeeded(a) + Succeeded(b)
  {
    if a != [] {
      assert (a + b)[0] == a[0];
      assert (a + b)[1..] == a[1..] + b;
      SucceededAppend(a[1..], b);
    } else {
      assert a + b == b;
    }
  }

  /** An item: its field values, and for a declared item class the fields it allows. */
  class Item {
    var fields: map<string, Value>
    /** None for a plain dict, which takes any key. */
    const declared: Option<set<string>>

    constructor (fields: map<string, Value>, declared: Option<set<string>>)
      ensures this.fields == fields && this.declared == declared
    {
      this.fields := fields;
      this.declared := declared;
    }

    /** Whether setting `field` succeeds (a declared item raises KeyError for an undeclared field). */
    predicate Accepts(field: string)
      reads this
    {
      declared.None? || field in declared.value
    }
  }

  class FilesPipeline {
    /** `files_urls_field` */
    const urlsField: string
    /** `files_result_field` */
    const resultField: string
    const stats: StatsCollector

    /** The two field names, defaulting to `file_urls` and `files`. */
    constructor (urlsField: Option<string>, resultField: Option<string>, stats: StatsCollector)
      ensures this.urlsField == if urlsField.Some? then urlsField.value else "file_urls"
      ensures this.resultField == if resultField.Some? then resultField.value else "files"
      ensures this.stats == stats
    {
      this.urlsField := if urlsField.Some? then urlsField.value else "file_urls";
      this.resultField := if resultField.Some? then resultField.value else "files";
      this.stats := stats;
    }

    /** `inc_stats` */
    method IncStats(status: string)
      modifies stats
      ensures stats.values == Counted(old(stats.values), status)
    {
      stats.IncValue("file_count");
      stats.IncValue(StatusKey(status));
    }

    /**
     * `media_downloaded`: classify the response, count it when it passes,
     * then store it; the stats are bumped even when storing then fails.
     */
    method MediaDownloaded(response: Http.Response, request: Http.Request,
                           processing: Result<(string, string), Exception>) returns (r: Result<FileInfo, Exception>)
      modifies stats
      ensures r == DownloadOutcome(response, request, processing)
      ensures Classify(response).Success? ==> stats.values == Counted(old(stats.values), Classify(response).value)
      ensures Classify(response).Failure? ==> stats.values == old(stats.values)
    {
      if response.status != 200 {
        return Failure(FileException("download-error"));
      }
      if response.body == [] {
        return Failure(FileException("empty-content"));
      }
      var status := if "cached" in response.flags then "cached" else "downloaded";
      IncStats(status);
      match processing {
        case Success((path, checksum)) =>
          return Success(FileInfo(request.url, path, checksum, status));
        case Failure(FileException(m)) =>
          return Failure(FileException(m));
        case Failure(e) =>
          return Failure(FileException(Str(e)));
      }
    }

    /**
     * `get_media_requests`: a missing URL field means no requests, a value
     * that is not a list is a TypeError, and a list gives one request per
     * URL, in order, with no callback.
     */
    function GetMediaRequests(item: map<string, Value>): (r: Result<seq<Http.Request>, Exception>)
      ensures urlsField !in item ==> r == Success([])
      ensures urlsField in item && item[urlsField].ListValue? ==> r == RequestsFor(item[urlsField].items)
      ensures urlsField in item && !item[urlsField].ListValue? ==>
        r == Failure(TypeError(urlsField + " must be a list of URLs, got " + TypeName(item[urlsField]) + ". "))
      ensures urlsField in item && item[urlsField].ListValue? && r.Success? ==>
        |r.value| == |item[urlsField].items|
        && forall i :: 0 <= i < |r.value| ==>
          item[urlsField].items[i].StrValue? && r.value[i].url == item[urlsField].items[i].s
          && r.value[i].callback == Http.NoCallback
    {
      var urls := if urlsField in item then item[urlsField] else ListValue([]);
      if !urls.ListValue? then
        Failure(TypeError(urlsField + " must be a list of URLs, got " + TypeName(urls) + ". "))
      else RequestsFor(urls.items)
    }

    /**
     * `item_completed`: store the successful downloads' records in the
     * result field; an item that refuses the field is returned unchanged.
     */
    method ItemCompleted(results: seq<DownloadResult>, item: Item) returns (r: Item)
      modifies item
      ensures r == item
      ensures item.Accepts(resultField) ==>
        item.fields == old(item.fields)[resultField := ListValue(Succeeded(results))]
      ensures !item.Accepts(resultField) ==> item.fields == old(item.fields)
    {
      if item.Accepts(resultField) {
        item.fields := item.fields[resultField := ListValue(Succeeded(results))];
      }
      return item;
    }
  }
}

=== FILE: http.dfy ===
/** The request, response, link and failure values the crawl engine and the files pipeline exchange. */
module Http {
  import opened Py

  /** A link found on a page: its absolute URL and its anchor text. Equality is structural. */
  datatype Link = Link(url: string, text: string)

  /** Which spider function a request's response (or failure) is routed back to. */
  datatype Handler =
    | NoHandler      // the engine's default (the spider's `parse`, or no errback)
    | NoCallback     // `scrapy.http.request.NO_CALLBACK`
    | CrawlCallback  // `CrawlSpider._callback`
    | CrawlErrback   // `CrawlSpider._errback`

  datatype Request = Request(url: string, meta: map<string, Value>, callback: Handler, errback: Handler)

  /**
   * A fetched response. `isHtml` says whether it is an `HtmlResponse`;
   * `links` are the links the page holds, as the default link extractor
   * finds them; `meta` is the meta of the request that produced it.
   */
  datatype Response = Response(
    url: string,
    status: int,
    body: seq<bv8>,
    flags: seq<string>,
    isHtml: bool,
    links: seq<Link>,
    meta: map<string, Value>)

  /** A failed fetch: the request that failed and the exception it failed with. */
  datatype Failure = Failure(request: Request, value: Exception)
}

=== FILE: log.dfy ===
/**
 * The string and dictionary helpers of `scrapy/utils/log.py`: logger-name
 * shortening, the adapter from log-formatter dictionaries to `logger.log`
 * arguments, the merging of `extra` by the spider's logger adapter, and the
 * file-like stream that logs each written line.
 */
module Log {
  import opened Wrappers
  import opened Py
  import opened Text

  /** `logging.INFO` */
  const INFO: int := 20

  // ---------------------------------------------------------------------
  // TopLevelFormatter
  // ---------------------------------------------------------------------

  /** `name` starts with one of the loggers followed by a dot. */
  predicate UnderSome(name: string, loggers: seq<string>)
  {
    exists i :: 0 <= i < |loggers| && StartsWith(name, loggers[i] + ".")
  }

  /** `any(name.startswith(logger + ".") for logger in loggers)` */
  function AnyUnder(name: string, loggers: seq<string>): (r: bool)
    ensures r <==> UnderSome(name, loggers)
  {
    if loggers == [] then false
    else if StartsWith(name, loggers[0] + ".") then true
    else
      var r := AnyUnder(name, loggers[1..]);
      assert forall i :: 1 <= i < |loggers| ==> loggers[i] == loggers[1..][i - 1];
      r
  }

  /** The record name after the filter: its text before the first dot when it lies under a listed logger. */
  function Shortened(name: string, loggers: seq<string>): (r: string)
    ensures !UnderSome(name, loggers) ==> r == name
    ensures UnderSome(name, loggers) ==> r <= name && '.' !in r
  {
    if AnyUnder(name, loggers) then HeadHasNoDot(name); Head(name, ".") else name
  }

  /** The text before the first dot holds no dot and is a prefix of the name. */
  lemma HeadHasNoDot(name: string)
    ensures Head(name, ".") <= name
    ensures '.' !in Head(name, ".")
  {
    match SplitOnce(name, ".")
    case None =>
      forall j | 0 <= j < |name|
        ensures name[j] != '.'
      {
        assert name[j..j + 1] == [name[j]];
        assert !OccursAt(name, ".", j);
      }
    case Some((a, _)) =>
      forall j | 0 <= j < |a|
        ensures a[j] != '.'
      {
        assert name[j..j + 1] == [name[j]];
        assert !OccursAt(name, ".", j);
      }
  }

  /**
   * A name under a listed top-level logger (one without a dot) becomes that
   * logger's name: `scrapy.core.engine` is shown as `scrapy`.
   */
  lemma ShortenedToTopLevel(name: string, loggers: seq<string>, i: nat)
    requires i < |loggers| && '.' !in loggers[i]
    requires StartsWith(name, loggers[i] + ".")
    ensures Shortened(name, loggers) == loggers[i]
  {
    var top := loggers[i];
    assert name[..|top| + 1] == top + ".";
    assert OccursAt(name, ".", |top|);
    forall j | 0 <= j < |top|
      ensures !OccursAt(name, ".", j)
    {
      assert name[j] == top[j];
    }
    var a := SplitOnce(name, ".").value.0;
    assert OccursAt(name, ".", |a|);
    assert |a| == |top|;
    assert a == name[..|a|] == top;
  }

  /** A name under no listed logger (a name equal to a listed logger included) is kept. */
  lemma ShortenedKeeps(name: string, loggers: seq<string>)
    requires !UnderSome(name, loggers)
    ensures Shortened(name, loggers) == name
  {
  }

  /** Shortening twice is shortening once: the short name holds no dot, so no logger prefix matches it. */
  lemma ShortenedIdempotent(name: string, loggers: seq<string>)
    ensures Shortened(Shortened(name, loggers), loggers) == Shortened(name, loggers)
  {
    var once := Shortened(name, loggers);
    if AnyUnder(name, loggers) {
      HeadHasNoDot(name);
      forall i | 0 <= i < |loggers|
        ensures !StartsWith(once, loggers[i] + ".")
      {
        var p := loggers[i] + ".";
        if |p| <= |once| {
          assert once[..|p|][|p| - 1] == once[|p| - 1] != '.';
          assert p[|p| - 1] == '.';
        }
      }
    }
  }

  /** A log record, as far as the filter looks at it. */
  class LogRecord {
    var name: string

    constructor (name: string)
      ensures this.name == name
    {
      this.name := name;
    }
  }

  /** `TopLevelFormatter` */
  class TopLevelFormatter {
    const loggers: seq<string>

    /** `loggers or []`: no list (or an empty one) means no logger is shortened. */
    constructor (loggers: Option<seq<string>>)
      ensures this.loggers == if loggers.Some? then loggers.value else []
      ensures loggers.None? ==> forall name :: Shortened(name, this.loggers) == name
    {
      this.loggers := if loggers.Some? && loggers.value != [] then loggers.value else [];
    }

    /** `filter`: shorten the record's name in place; the record is always kept. */
    method Filter(record: LogRecord) returns (keep: bool)
      modifies record
      ensures keep
      ensures record.name == Shortened(old(record.name), loggers)
    {
      if AnyUnder(record.name, loggers) {
        record.name := Head(record.name, ".");
      }
      return true;
    }
  }

  // ---------------------------------------------------------------------
  // logformatter_adapter
  // ---------------------------------------------------------------------

  /** The positional arguments of a `logger.log` call. */
  datatype LogCall = LogCall(level: Value, message: Value, args: Value)

  /**
   * `logformatter_adapter`: the level (INFO when missing), the message
   * (`""` when missing or falsy), and the args (the whole dictionary when
   * missing or falsy).
   */
  function LogformatterAdapter(logkws: map<string, Value>): (r: LogCall)
    ensures "level" in logkws ==> r.level == logkws["level"]
    ensures "level" !in logkws ==> r.level == IntValue(INFO)
    ensures r.message == StrValue("") || ("msg" in logkws && r.message == logkws["msg"] && Truthy(r.message))
    ensures "msg" in logkws && Truthy(logkws["msg"]) ==> r.message == logkws["msg"]
    ensures r.args == DictValue(logkws) || ("args" in logkws && r.args == logkws["args"] && Truthy(r.args))
    ensures "args" in logkws && Truthy(logkws["args"]) ==> r.args == logkws["args"]
    ensures !("args" in logkws && Truthy(logkws["args"])) ==> r.args == DictValue(logkws)
  {
    var level := if "level" in logkws then logkws["level"] else IntValue(INFO);
    var message := if "msg" in logkws && Truthy(logkws["msg"]) then logkws["msg"] else StrValue("");
    var args := if "args" in logkws && Truthy(logkws["args"]) then logkws["args"] else DictValue(logkws);
    LogCall(level, message, args)
  }

  /** The args handed to `logger.log` are never an empty mapping unless the whole dictionary was empty. */
  lemma AdapterArgsTruthy(logkws: map<string, Value>)
    ensures Truthy(LogformatterAdapter(logkws).args) <==> logkws != map[]
  {
    if "args" in logkws {
      assert logkws != map[];
    }
  }

  // ---------------------------------------------------------------------
  // SpiderLoggerAdapter
  // ---------------------------------------------------------------------

  /** The `extra` after `process`: a given mapping updated with the adapter's (which win), else the adapter's own. */
  function MergedExtra(kwargs: map<string, Value>, extra: map<string, Value>): (r: Value)
    ensures r.DictValue? && extra.Keys <= r.entries.Keys
    ensures forall key :: key in extra ==> r.entries[key] == extra[key]
  {
    if "extra" in kwargs && kwargs["extra"].DictValue? then DictValue(kwargs["extra"].entries + extra)
    else DictValue(extra)
  }

  /**
   * The adapter's values always end up in `extra`; a caller's own value
   * survives only when it was given as a mapping and the adapter has no
   * value for that key.
   */
  lemma MergedExtraMeaning(kwargs: map<string, Value>, extra: map<string, Value>, key: string)
    ensures MergedExtra(kwargs, extra).DictValue?
    ensures key in extra ==> key in MergedExtra(kwargs, extra).entries && MergedExtra(kwargs, extra).entries[key] == extra[key]
    ensures key !in extra ==>
      (key in MergedExtra(kwargs, extra).entries <==>
         "extra" in kwargs && kwargs["extra"].DictValue? && key in kwargs["extra"].entries)
    ensures key !in extra && key in MergedExtra(kwargs, extra).entries ==>
      MergedExtra(kwargs, extra).entries[key] == kwargs["extra"].entries[key]
  {
  }

  /** The keyword arguments of a logging call. */
  class LogKwargs {
    var entries: map<string, Value>

    constructor (entries: map<string, Value>)
      ensures this.entries == entries
    {
      this.entries := entries;
    }
  }

  /** `SpiderLoggerAdapter`, with the adapter's `extra` mapping. */
  class SpiderLoggerAdapter {
    const extra: map<string, Value>

    constructor (extra: map<string, Value>)
      ensures this.extra == extra
    {
      this.extra := extra;
    }

    /** `process`: the message is returned unchanged; only `kwargs["extra"]` changes. */
    method Process(msg: string, kwargs: LogKwargs) returns (outMsg: string, outKwargs: LogKwargs)
      modifies kwargs
      ensures outMsg == msg && outKwargs == kwargs
      ensures kwargs.entries == old(kwargs.entries)["extra" := MergedExtra(old(kwargs.entries), extra)]
    {
      if "extra" in kwargs.entries && kwargs.entries["extra"].DictValue? {
        var given := kwargs.entries["extra"].entries;
        kwargs.entries := kwargs.entries["extra" := DictValue(given + extra)];
      } else {
        kwargs.entries := kwargs.entries["extra" := DictValue(extra)];
      }
      return msg, kwargs;
    }
  }

  // ---------------------------------------------------------------------
  // StreamLogger
  // ---------------------------------------------------------------------

  /** The log calls `write(buf)` makes: one per line of the right-stripped buffer, each line right-stripped. */
  function Logged(level: int, buf: string): (r: seq<(int, string)>)
    ensures |r| == |SplitLines(RStrip(buf))|
  {
    var lines := SplitLines(RStrip(buf));
    seq(|lines|, i requires 0 <= i < |lines| => (level, RStrip(lines[i])))
  }

  /** A buffer of whitespace only logs nothing; one with other text logs at least one line. */
  lemma LoggedNothingForBlank(level: int, buf: string)
    ensures Logged(level, buf) == [] <==> forall i :: 0 <= i < |buf| ==> IsSpace(buf[i])
  {
    var stripped := RStrip(buf);
    if stripped != [] {
      assert !IsSpace(buf[|stripped| - 1]);
    }
  }

  /** Every logged line has no trailing whitespace and no line break, at the stream's level. */
  lemma LoggedLinesClean(level: int, buf: string)
    ensures forall i :: 0 <= i < |Logged(level, buf)| ==>
      Logged(level, buf)[i].0 == level
      && (Logged(level, buf)[i].1 == [] || !IsSpace(Logged(level, buf)[i].1[|Logged(level, buf)[i].1| - 1]))
      && forall j :: 0 <= j < |Logged(level, buf)[i].1| ==> !IsLineBoundary(Logged(level, buf)[i].1[j])
  {
    var lines := SplitLines(RStrip(buf));
    forall i | 0 <= i < |lines|
      ensures forall j :: 0 <= j < |RStrip(lines[i])| ==> !IsLineBoundary(RStrip(lines[i])[j])
    {
      assert RStrip(lines[i]) <= lines[i];
    }
  }

  /** A buffer with no line break and some visible text is logged as one line, right-stripped. */
  lemma OneLineBuffer(level: int, buf: string)
    requires forall i :: 0 <= i < |buf| ==> !IsLineBoundary(buf[i])
    requires exists i :: 0 <= i < |buf| && !IsSpace(buf[i])
    ensures Logged(level, buf) == [(level, RStrip(buf))]
  {
    var stripped := RStrip(buf);
    assert stripped <= buf;
    assert stripped != [];
    assert FirstBoundary(stripped) == None;
    assert SplitLines(stripped) == [stripped];
    assert RStrip(stripped) == stripped;
  }

  /** `StreamLogger`: a file-like object whose writes become log calls at a fixed level. */
  class StreamLogger {
    const logLevel: int
    /** The `(level, message)` log calls made so far. */
    var emitted: seq<(int, string)>

    /** The level defaults to INFO. */
    constructor (logLevel: Option<int>)
      ensures this.logLevel == if logLevel.Some? then logLevel.value else INFO
      ensures emitted == []
    {
      this.logLevel := if logLevel.Some? then logLevel.value else INFO;
      emitted := [];
    }

    /** `write`: log each line of the buffer. */
    method Write(buf: string)
      modifies this
      ensures emitted == old(emitted) + Logged(logLevel, buf)
    {
      var lines := SplitLines(RStrip(buf));
      ghost var before := emitted;
      for i := 0 to |lines|
        invariant emitted == before + Logged(logLevel, buf)[..i]
      {
        emitted := emitted + [(logLevel, RStrip(lines[i]))];
        assert Logged(logLevel, buf)[..i + 1] == Logged(logLevel, buf)[..i] + [(logLevel, RStrip(lines[i]))];
      }
      assert Logged(logLevel, buf)[..|lines|] == Logged(logLevel, buf);
    }
  }
}

=== FILE: py.dfy ===
/**
 * The few Python run-time values the modelled code inspects: item fields,
 * request meta entries, logging keyword dictionaries, and the exceptions
 * the code raises.
 */
module Py {

  /** A Python value, as far as the modelled code looks at it. Dictionary keys are strings. */
  datatype Value =
    | NoneValue
    | BoolValue(b: bool)
    | IntValue(i: int)
    | StrValue(s: string)
    | ListValue(items: seq<Value>)
    | TupleValue(items: seq<Value>)
    | DictValue(entries: map<string, Value>)
    | ExceptionValue(e: Exception)

  /** The exception classes the modelled code raises or catches. */
  datatype Exception =
    | TypeError(message: string)
    | KeyError(key: string)
    | IndexError(message: string)
    | ValueError(message: string)
    | FileException(message: string)
    | IgnoreRequest(message: string)

  /** Python truthiness (`bool(v)`). */
  predicate Truthy(v: Value)
  {
    match v
    case NoneValue => false
    case BoolValue(b) => b
    case IntValue(i) => i != 0
    case StrValue(s) => s != ""
    case ListValue(items) => items != []
    case TupleValue(items) => items != []
    case DictValue(entries) => entries != map[]
    case ExceptionValue(_) => true
  }

  /** `type(v).__name__` */
  function TypeName(v: Value): string
  {
    match v
    case NoneValue => "NoneType"
    case BoolValue(_) => "bool"
    case IntValue(_) => "int"
    case StrValue(_) => "str"
    case ListValue(_) => "list"
    case TupleValue(_) => "tuple"
    case DictValue(_) => "dict"
    case ExceptionValue(e) => ExceptionName(e)
  }

  function ExceptionName(e: Exception): string
  {
    match e
    case TypeError(_) => "TypeError"
    case KeyError(_) => "KeyError"
    case IndexError(_) => "IndexError"
    case ValueError(_) => "ValueError"
    case FileException(_) => "FileException"
    case IgnoreRequest(_) => "IgnoreRequest"
  }

  /** `str(exc)`: the message, or the quoted key of a KeyError. */
  function Str(e: Exception): string
  {
    match e
    case KeyError(key) => "'" + key + "'"
    case TypeError(m) => m
    case IndexError(m) => m
    case ValueError(m) => m
    case FileException(m) => m
    case IgnoreRequest(m) => m
  }

  /** The TypeError Python raises when a non-callable value is called. */
  function NotCallable(typeName: string): Exception
  {
    TypeError("'" + typeName + "' object is not callable")
  }
}

=== FILE: text.dfy ===
/**
 * The Python `str` operations the modelled code uses: `in`, `startswith`,
 * `split(sep, 1)`, `split(c)`, ASCII `lower()`, `rstrip()` and `splitlines()`.
 */
module Text {
  import opened Wrappers

  /** `p` occurs in `s` at index `i`. */
  predicate OccursAt(s: string, p: string, i: nat)
  {
    i + |p| <= |s| && s[i..i + |p|] == p
  }

  predicate StartsWith(s: string, p: string)
  {
    OccursAt(s, p, 0)
  }

  /** `s.find(p)`, as an Option: the first index at which `p` occurs. */
  function Find(s: string, p: string): (r: Option<nat>)
    ensures r.Some? ==> OccursAt(s, p, r.value) && forall j :: 0 <= j < r.value ==> !OccursAt(s, p, j)
    ensures r.None? ==> forall j :: 0 <= j <= |s| ==> !OccursAt(s, p, j)
  {
    FindFrom(s, p, 0)
  }

  function FindFrom(s: string, p: string, i: nat): (r: Option<nat>)
    requires i <= |s|
    ensures r.Some? ==> i <= r.value && OccursAt(s, p, r.value)
    ensures r.Some? ==> forall j :: i <= j < r.value ==> !OccursAt(s, p, j)
    ensures r.None? ==> forall j :: i <= j <= |s| ==> !OccursAt(s, p, j)
    decreases |s| - i
  {
    if OccursAt(s, p, i) then Some(i)
    else if i == |s| then None
    else FindFrom(s, p, i + 1)
  }

  /** `p in s` */
  predicate Contains(s: string, p: string)
  {
    Find(s, p).Some?
  }

  /**
   * `s.split(sep, 1)` when it yields two parts: the text before the first
   * occurrence of `sep` and the text after it; None when `sep` does not occur.
   */
  function SplitOnce(s: string, sep: string): (r: Option<(string, string)>)
    ensures r.Some? <==> Contains(s, sep)
    ensures r.Some? ==> s == r.value.0 + sep + r.value.1
    ensures r.Some? ==> forall j :: 0 <= j < |r.value.0| ==> !OccursAt(s, sep, j)
  {
    match Find(s, sep)
    case None => None
    case Some(i) =>
      assert s == s[..i] + sep + s[i + |sep|..];
      Some((s[..i], s[i + |sep|..]))
  }

  /** `s.split(sep, 1)[0]` */
  function Head(s: string, sep: string): string
  {
    match SplitOnce(s, sep)
    case None => s
    case Some((a, _)) => a
  }

  /** The first index holding `c`. */
  function IndexOfChar(s: string, c: char): (r: Option<nat>)
    ensures r.Some? ==> r.value < |s| && s[r.value] == c && c !in s[..r.value]
    ensures r.None? ==> c !in s
  {
    if s == [] then None
    else if s[0] == c then Some(0)
    else match IndexOfChar(s[1..], c)
      case None => None
      case Some(i) => Some(i + 1)
  }

  /** `s.split(c)` for a one-character separator. */
  function Split(s: string, c: char): (parts: seq<string>)
    ensures |parts| >= 1
    ensures forall i :: 0 <= i < |parts| ==> c !in parts[i]
    ensures Join(parts, c) == s
    decreases |s|
  {
    match IndexOfChar(s, c)
    case None => [s]
    case Some(i) =>
      var rest := Split(s[i + 1..], c);
      assert s == s[..i] + [c] + s[i + 1..];
      [s[..i]] + rest
  }

  /** `c.join(parts)` */
  function Join(parts: seq<string>, c: char): string
  {
    if parts == [] then ""
    else if |parts| == 1 then parts[0]
    else parts[0] + [c] + Join(parts[1..], c)
  }

  function LowerChar(c: char): char
  {
    if 'A' <= c <= 'Z' then (c as int + 32) as char else c
  }

  /** `s.lower()` on the ASCII letters. */
  function Lower(s: string): string
  {
    seq(|s|, i requires 0 <= i < |s| => LowerChar(s[i]))
  }

  /** `c.isspace()`, by code point. */
  predicate IsSpace(c: char)
  {
    var n := c as int;
    (9 <= n <= 13) || (0x1c <= n <= 0x20) || n == 0x85 || n == 0xa0 || n == 0x1680
    || (0x2000 <= n <= 0x200a) || n == 0x2028 || n == 0x2029 || n == 0x202f || n == 0x205f
    || n == 0x3000
  }

  /** The characters at which `str.splitlines()` breaks a line, by code point. */
  predicate IsLineBoundary(c: char)
  {
    var n := c as int;
    (10 <= n <= 13) || (0x1c <= n <= 0x1e) || n == 0x85 || n == 0x2028 || n == 0x2029
  }

  /** `s.rstrip()`: the longest prefix of `s` that does not end in whitespace. */
  function RStrip(s: string): (r: string)
    ensures r <= s
    ensures r == [] || !IsSpace(r[|r| - 1])
    ensures forall i :: |r| <= i < |s| ==> IsSpace(s[i])
  {
    if s == [] || !IsSpace(s[|s| - 1]) then s
    else RStrip(s[..|s| - 1])
  }

  /** The index of the first line boundary in `s`. */
  function FirstBoundary(s: string): (r: Option<nat>)
    ensures r.Some? ==> r.value < |s| && IsLineBoundary(s[r.value])
    ensures r.Some? ==> forall j :: 0 <= j < r.value ==> !IsLineBoundary(s[j])
    ensures r.None? ==> forall j :: 0 <= j < |s| ==> !IsLineBoundary(s[j])
  {
    if s == [] then None
    else if IsLineBoundary(s[0]) then Some(0)
    else match FirstBoundary(s[1..])
      case None => None
      case Some(i) => Some(i + 1)
  }

  /**
   * `s.splitlines()`: the lines of `s` without their line breaks; `\r\n`
   * is one break, and a break at the very end opens no further line.
   */
  function SplitLines(s: string): (lines: seq<string>)
    ensures forall i, j :: 0 <= i < |lines| && 0 <= j < |lines[i]| ==> !IsLineBoundary(lines[i][j])
    ensures lines == [] <==> s == []
    ensures s != [] && FirstBoundary(s).None? ==> lines == [s]
    ensures FirstBoundary(s).Some? ==> lines[0] == s[..FirstBoundary(s).value]
    decreases |s|
  {
    if s == [] then []
    else match FirstBoundary(s)
      case None => [s]
      case Some(i) =>
        [s[..i]] + SplitLines(s[NextLineStart(s, i)..])
  }

  /** `s` without the characters `drop` holds for. */
  function Without(s: string, drop: char -> bool): (r: string)
    ensures |r| <= |s|
  {
    if s == [] then []
    else (if drop(s[0]) then [] else [s[0]]) + Without(s[1..], drop)
  }

  /** `s` without its line-break characters. */
  function WithoutBreaks(s: string): string
  {
    Without(s, IsLineBoundary)
  }

  /** The concatenation of a list of strings. */
  function Concat(parts: seq<string>): string
  {
    if parts == [] then [] else parts[0] + Concat(parts[1..])
  }

  lemma {:induction false} WithoutAppend(a: string, b: string, drop: char -> bool)
    ensures Without(a + b, drop) == Without(a, drop) + Without(b, drop)
  {
    if a != [] {
      assert (a + b)[1..] == a[1..] + b;
      WithoutAppend(a[1..], b, drop);
    } else {
      assert a + b == b;
    }
  }

  lemma {:induction false} NoneDropped(s: string, drop: char -> bool)
    requires forall i :: 0 <= i < |s| ==> !drop(s[i])
    ensures Without(s, drop) == s
  {
    if s != [] {
      NoneDropped(s[1..], drop);
      assert s == [s[0]] + s[1..];
    }
  }

  lemma {:induction false} AllDropped(s: string, drop: char -> bool)
    requires forall i :: 0 <= i < |s| ==> drop(s[i])
    ensures Without(s, drop) == []
  {
    if s != [] {
      AllDropped(s[1..], drop);
    }
  }

  /** Dropping from a kept stretch, a dropped stretch and the rest keeps the first stretch and the rest's kept characters. */
  lemma {:induction false} DropStep(s: string, i: nat, next: nat, drop: char -> bool)
    requires i < next <= |s|
    requires forall j :: 0 <= j < i ==> !drop(s[j])
    requires forall j :: i <= j < next ==> drop(s[j])
    ensures Without(s, drop) == s[..i] + Without(s[next..], drop)
  {
    var a, b, c := s[..i], s[i..next], s[next..];
    assert s == (a + b) + c;
    WithoutAppend(a + b, c, drop);
    WithoutAppend(a, b, drop);
    NoneDropped(a, drop);
    AllDropped(b, drop);
    assert a + [] == a;
  }

  /** Where the line after a break at `i` starts: `\r\n` is one break. */
  function NextLineStart(s: string, i: nat): (next: nat)
    requires i < |s|
    ensures i < next <= |s|
  {
    if s[i] == '\r' && i + 1 < |s| && s[i + 1] == '\n' then i + 2 else i + 1
  }

  /** One step of `splitlines`: the first line, then the lines after the break. */
  lemma {:induction false} SplitLinesStep(s: string, i: nat)
    requires FirstBoundary(s) == Some(i)
    ensures SplitLines(s) == [s[..i]] + SplitLines(s[NextLineStart(s, i)..])
  {
    assert s != [];
  }

  /** Every character from a boundary up to where the next line starts is part of the break. */
  lemma {:induction false} BreakCharacters(s: string, i: nat)
    requires i < |s| && IsLineBoundary(s[i])
    ensures forall j :: i <= j < NextLineStart(s, i) ==> IsLineBoundary(s[j])
  {
    if NextLineStart(s, i) == i + 2 {
      assert s[i + 1] == '\n';
    }
  }

  lemma {:induction false} ConcatCons(first: string, rest: seq<string>)
    ensures Concat([first] + rest) == first + Concat(rest)
  {
    assert ([first] + rest)[1..] == rest;
  }

  /**
   * The lines `splitlines` returns are the text with only its line breaks
   * removed: no other character is lost, added or moved.
   */
  lemma {:induction false} SplitLinesKeepsText(s: string)
    ensures Concat(SplitLines(s)) == WithoutBreaks(s)
    decreases |s|
  {
    if s != [] {
      match FirstBoundary(s)
      case None =>
        NoneDropped(s, IsLineBoundary);
        ConcatCons(s, []);
      case Some(i) =>
        var next := NextLineStart(s, i);
        SplitLinesStep(s, i);
        BreakCharacters(s, i);
        SplitLinesKeepsText(s[next..]);
        ConcatCons(s[..i], SplitLines(s[next..]));
        DropStep(s, i, next, IsLineBoundary);
    }
  }
}

=== FILE: wrappers.dfy ===
/** Option and Result, used for Python's `None` and for raised exceptions. */
module Wrappers {

  datatype Option<+T> = None | Some(value: T)

  datatype Result<+R, +E> = Success(value: R) | Failure(error: E)
}
